=== FILE: README.md ===
# Smart mirror: a Dafny model of the face-presence pipeline

The smart mirror is a Raspberry Pi program. It draws the date, the time and
the weather on a screen, plus the names of the people a camera sees in front
of it. This project models the logic behind that display as pure Dafny
functions and proves properties of them:

- **Presence update** (`Presence`). Each tick, the ordered list of people
  "in frame" is reconciled with what the recognizer reported:
  - a failed pass clears the list;
  - an empty list adopts the report as it is;
  - otherwise every name missing from the report is removed.

  The program's collect-then-`list.remove` loop is an imperative method.
  It is proved equal to a plain filter.
- **Recognition handlers** (`Handler`). Each pass:
  - first bootstraps the known-face store if its file is missing;
  - strips the sentinel label `unknown`;
  - reports an empty or failed pass as `None`.

  One tick feeds that result to the presence update.
- **Recognition pass** (`Pipeline`). Detect faces, crop each bounding box
  with Python slice semantics, embed each crop, then label it. There are two
  versions:
  - the newer one bounds each model call and skips crops that fail;
  - the older one fails the whole pass on any failure.
- **Matcher** (`Matcher`). Nearest neighbour by Euclidean distance:
  - the first index of the minimum wins;
  - a match needs a distance strictly below 6.0;
  - distances are compared squared, against 36.
- **Known-face store** (`Store`, `Json`). Two parallel lists, saved to and
  loaded from a JSON object with the keys `known_encodings` and
  `known_names`.
- **Enrollment** (`Enrollment`). The store is rebuilt from the reference
  images:
  - captures are named `{name}_scan{i}.jpg`;
  - only `.jpg` files are read;
  - each image gives at most one entry.

  Both the newer and the older Hailo versions are modelled.
- **Weather** (`Weather`, `LegacyWeather`):
  - the newer client's refresh predicate, debounce and reload flag;
  - its icon fallbacks and forecast slicing;
  - the older client's hour-string refresh decision and request URLs.
- **Widgets** (`Widgets`). What each widget appends to the draw list:
  - the comma-joined names line, built by the program's own loop;
  - the date and time lines;
  - the location, icon and temperature.

Cameras, neural-network models, the clock, HTTP requests and the file
system are parameters:
- the frame is an `Option<Image>`;
- a model is a function returning `Option`, where `None` stands for a
  timeout or an exception;
- file existence is a predicate;
- a directory listing is a sequence.

Inside a recognition pass, Python's exceptions and `None` returns are both
`None` of `Wrappers.Option`, because the handlers catch the one and test for
the other alike. An exception that escapes a pass is different: no worker
loop catches it, so it ends the worker thread. The newer handler's pass
raises this way when the reference image directory is missing and no store
exists; the older passes raise on an unlisted person directory or, in the
widget handler, on every pass. Such passes end in `Handler.PassOutcome`,
whose `Crashed` case freezes the published presence list
(`Handler.RunPasses`).

The store loader does not check that the two lists have the same length.
A record with more names than embeddings is read back as it is
(`Store.LoadAcceptsMisaligned`).

## Model

| member | source | states |
|---|---|---|
| Presence.Keep | widgets/widget_handlers/facial_recognition/facial_rec_handler.py:57-63 | the filtered list is a subsequence of `present`, holds exactly the present names that were detected, and keeps every occurrence of each detected name |
| Presence.FirstIndex | widgets/widget_handlers/facial_recognition/facial_rec_handler.py:63 | the position `list.remove` acts on: it holds the name and no earlier position does |
| Presence.ListRemove | widgets/widget_handlers/facial_recognition/facial_rec_handler.py:63 | `list.remove` fails exactly when the name is absent; otherwise it deletes the first occurrence and keeps the other elements in their order, so the multiset loses exactly one copy of the name |
| Presence.ListRemoveAt | widgets/widget_handlers/facial_recognition/facial_rec_handler.py:63 | `list.remove` of a present name deletes exactly the element at the name's first index |
| Presence.ListRemoveTail | widgets/widget_handlers/facial_recognition/facial_rec_handler.py:63 | when the head differs and the name occurs later, removal keeps the head in front of the removal from the tail |
| Presence.ListRemoveHead | widgets/widget_handlers/facial_recognition/facial_rec_handler.py:63 | removal from a list that starts with the name drops the head; otherwise the head stays in front of the removal from the tail, and an absent name fails |
| Presence.RemoveAbsent | widgets/widget_handlers/facial_recognition/facial_rec_handler.py:58-63 | collecting every absent occurrence and then removing each collected name once (first occurrence) yields exactly the filter `Keep` |
| Presence.RemoveFirstAbsent | widgets/widget_handlers/facial_recognition/facial_rec_handler.py:62-63 | one removal of the first collected name never fails, preserves the filter, and leaves the remaining collected names as the new absent list |
| Presence.Reconcile | widgets/widget_files/facial_recognition/facial_rec.py:54-64 | `None` gives `[]`; an empty list adopts the detection verbatim; otherwise the result is a subsequence of `present` whose members are exactly the present names that were detected, with their multiplicities |
| Presence.ProcessNamedFaces | widgets/widget_handlers/facial_recognition/facial_rec_handler.py:41-64 | the imperative update, with its removal loop, computes `Reconcile` |
| Presence.ReconcileOnlyDetected | main.py:58-68 | every name present after a successful pass was detected in it; an empty detection empties the list |
| Presence.NoNewcomerWhilePresent | main.py:62-68 | while somebody is present, nobody new is ever added |
| Presence.ReconcileNeverGrows | widgets/widget_files/facial_recognition/facial_rec.py:58-64 | a non-empty list never grows |
| Presence.ReconcileIdempotent | widgets/widget_handlers/facial_recognition/facial_rec_handler.py:57-63 | reconciling twice with the same detection changes nothing more, unless the first step emptied the list |
| Presence.AllDetectedKept | widgets/widget_handlers/facial_recognition/facial_rec_handler.py:59-61 | when everyone present was detected, nothing is removed |
| Presence.Examples | main.py:58-68 | worked cases: failure clears, adoption, single departure, full turnover, duplicates all removed |
| Handler.DropUnknown | widgets/widget_handlers/facial_recognition/facial_rec_handler.py:33 | the result is the input without the sentinel, order kept, and every other name keeps its multiplicity |
| Handler.PostFilter | facial_recognition/facial_rec.py:19-27 | a failed pass stays `None`; a reported list is non-empty, has no sentinel and equals the filtered pass; `None` for a successful pass means it held only sentinels |
| Handler.BootstrapStoreFile | widgets/widget_handlers/facial_recognition/facial_rec_handler.py:25-28 | an existing store file is used as it is; a missing one is replaced by the saved enrollment, which loads back to that enrollment |
| Handler.RunRecognition | widgets/widget_handlers/facial_recognition/facial_rec_handler.py:19-39 | the pass ends the thread exactly when no store file exists and the reference image directory is missing (its listing in the bootstrap runs outside any `try`); otherwise it runs on the stored store, or on a fresh enrollment of the listing; a returned list never holds the sentinel and is never empty |
| Handler.RunRecognitionLegacy | facial_recognition/facial_rec.py:16-27 | the pass ends the worker thread exactly when enrollment has to run and a person directory cannot be listed, since enrollment sits outside the `try`; otherwise it returns the filtered older pass on the stored or the freshly enrolled store, never holding the sentinel and never an empty list |
| Handler.WidgetRecognition | widgets/widget_files/facial_recognition/facial_rec.py:24-40 | reading a store-path attribute the recogniser lacks ends the thread, whatever else holds; reading one it has gives the mirror handler's pass, which ends the thread exactly when enrollment meets an unlisted directory |
| Handler.RunRecognitionWidget | widgets/widget_files/facial_recognition/facial_rec.py:30 | as written, reading `_JSON_PATH` ends the thread on every pass |
| Handler.RunRecognitionWidgetCorrected | widgets/widget_files/facial_recognition/facial_rec.py:24-40 | reading `JSON_PATH`, the pass ends the thread exactly when enrollment meets an unlisted directory, and with a store file it returns the filtered older pass |
| Handler.Tick | widgets/widget_handlers/facial_recognition/facial_rec_handler.py:69-75 | one loop iteration: a failed or empty filtered pass clears the list, the list never holds the sentinel afterwards, an empty list adopts the filtered pass, and a non-empty list keeps, in order, exactly the names that are present, detected and not the sentinel, each detected name with all its copies |
| Handler.RunNeverUnknown | widgets/widget_handlers/facial_recognition/facial_rec_handler.py:69-76 | after at least one iteration, or from a list without it, the sentinel is never present |
| Handler.RunWithoutEmptying | widgets/widget_handlers/facial_recognition/facial_rec_handler.py:69-76 | as long as the list never empties, everyone present after many iterations was present at the start, in the same order |
| Handler.RunSnoc | widgets/widget_handlers/facial_recognition/facial_rec_handler.py:69-76 | running one more iteration is one more tick on the result |
| Handler.DropUnknownKeepsClean | widgets/widget_handlers/facial_recognition/facial_rec_handler.py:33 | a list without the sentinel passes the filter unchanged |
| Handler.PostFilterIdempotent | facial_recognition/facial_rec.py:23-27 | filtering a pass result twice is filtering it once |
| Handler.CrashFreezes | main.py:54-71 | once a pass has ended the thread, later passes change nothing: the published list is frozen |
| Handler.RunPassesWithoutCrash | main.py:54-71 | without a crash, a run of passes updates the list exactly as the iterations of `Run` over their results |
| Handler.WidgetNeverSeesAnyone | widgets/widget_files/facial_recognition/facial_rec.py:67-75 | as written, the older widget's published list stays empty whatever later passes would return |
| Handler.WidgetCorrectedSeesFaces | widgets/widget_files/facial_recognition/facial_rec.py:67-75 | corrected, once a store file exists the first pass publishes the recognised names, or an empty list when it recognised none |
| Handler.FirstPassAdopts | main.py:58-61 | from an empty list, a pass that returned names publishes exactly those names |
| Matcher.SqDist | facial_recognition/fr_files/fr_functions.py:91-93 | the squared Euclidean distance is non-negative |
| Matcher.SqDistSymmetric | facial_recognition/fr_files/fr_functions.py:91-93 | the distance is symmetric |
| Matcher.SqDistSelf | facial_recognition/fr_files/fr_functions.py:91-93 | an embedding is at distance zero from itself |
| Matcher.ThresholdBySquares | widgets/widget_handlers/facial_recognition/fr_files/facial_recognition.py:121 | for a non-negative distance, `< 6.0` holds exactly when its square is `< 36` |
| Matcher.ArgMin | widgets/widget_handlers/facial_recognition/fr_files/facial_recognition.py:120 | the chosen index holds the minimum and every earlier index is strictly larger: the first minimum |
| Matcher.MatchIndex | widgets/widget_files/facial_recognition/fr_files/facial_recognition.py:190-197 | a match is the first nearest stored embedding and lies strictly within the threshold; there is no match exactly when every stored embedding is at distance 6.0 or more |
| Matcher.Label | widgets/widget_handlers/facial_recognition/fr_files/facial_recognition.py:117-124 | a label fails exactly for an empty store, mismatched lengths or a match beyond the name list; a matched face gets the name at the match index, an unmatched face the sentinel |
| Matcher.ConvertFacesToNames | widgets/widget_handlers/facial_recognition/fr_files/facial_recognition.py:108-127 | one label per embedding, in input order, each the per-embedding label; the whole call fails exactly when some label fails |
| Matcher.LabelsAreNamesOrUnknown | widgets/widget_files/facial_recognition/fr_files/facial_recognition.py:194-198 | every label of a successful call is a stored name or the sentinel |
| Matcher.EmptyStore | widgets/widget_handlers/facial_recognition/fr_files/facial_recognition.py:120-127 | with an empty store any face makes the call fail; no faces gives an empty list |
| Matcher.BoundaryIsUnknown | widgets/widget_handlers/facial_recognition/fr_files/facial_recognition.py:121-124 | a face at distance exactly 6.0 is labelled unknown |
| Matcher.ExactMatchRecognised | widgets/widget_handlers/facial_recognition/fr_files/facial_recognition.py:117-122 | a face identical to a stored embedding is labelled, and with a real name unless the sentinel is itself a stored name |
| Store.EncodeEmbeddings | facial_recognition/fr_files/fr_functions.py:107-109 | each embedding becomes a JSON array of its components, in order |
| Store.Save | facial_recognition/fr_files/fr_functions.py:105-113 | the record has exactly the keys `known_encodings` and `known_names`, encodings converted element-wise and each name stored as its string, in order |
| Store.Load | facial_recognition/fr_files/fr_functions.py:96-102 | a load succeeds exactly when the record is an object whose two keys hold arrays that decode, and then gives the decoded lists in file order |
| Store.DecodeEmbeddings | facial_recognition/fr_files/fr_functions.py:100-101 | the stored arrays decode exactly when each is an array of numbers; each embedding is its array read in order |
| Store.DecodeNames | facial_recognition/fr_files/fr_functions.py:101 | the stored names decode exactly when each is a string, and keep their order |
| Store.DecodeEncodeEmbeddings | facial_recognition/fr_files/fr_functions.py:100-110 | decoding the saved encodings gives them back |
| Store.DecodeEncodeNames | facial_recognition/fr_files/fr_functions.py:101-110 | decoding the saved names gives them back |
| Store.LoadSave | widgets/widget_handlers/facial_recognition/fr_files/facial_recognition.py:129-149 | loading what was saved gives back the same pair of lists |
| Store.LoadAcceptsMisaligned | facial_recognition/fr_files/fr_functions.py:99-102 | loading performs no length check: lists of different lengths load |
| Pipeline.Trunc | facial_recognition/fr_files/fr_functions.py:85 | `int()` of a coordinate truncates toward zero |
| Pipeline.SliceBound | facial_recognition/fr_files/fr_functions.py:86 | a bound inside the sequence is kept, a negative one counts from the end, and bounds beyond either end clamp to the length or to zero |
| Pipeline.PySlice | facial_recognition/fr_files/fr_functions.py:86 | a slice is the contiguous run between the normalised bounds, empty when they cross |
| Pipeline.CropRegion | facial_recognition/fr_files/fr_functions.py:84-86 | the crop keeps rows `y1:y2` and, within each, columns `x1:x2` of the truncated box |
| Pipeline.Crop | widgets/widget_handlers/facial_recognition/fr_files/facial_recognition.py:86-88 | a crop fails exactly when the box does not have four coordinates or the region is empty (the resize raises) |
| Wrappers.AllSome | widgets/widget_files/facial_recognition/fr_files/facial_recognition.py:183-187 | a loop aborted by its first failure yields every value in order, or fails exactly when some item failed |
| Pipeline.CroppedFaces | widgets/widget_handlers/facial_recognition/fr_files/facial_recognition.py:82-93 | one crop per detected box, in order, or `None` when detection failed or any crop failed |
| Pipeline.EncodeAll | widgets/widget_handlers/facial_recognition/fr_files/facial_recognition.py:97-103 | the embeddings that arrived, in crop order, never more than the crops, and all of them when none failed |
| Pipeline.EncodeAllAppend | widgets/widget_handlers/facial_recognition/fr_files/facial_recognition.py:98-102 | encoding distributes over concatenation of the crop list |
| Pipeline.EncodeAllFirst | widgets/widget_handlers/facial_recognition/fr_files/facial_recognition.py:97-103 | there is no embedding exactly when no call returned, and the first embedding is that of the first crop whose call returned |
| Pipeline.EncodeFaces | widgets/widget_handlers/facial_recognition/fr_files/facial_recognition.py:95-106 | encoding fails exactly when there were no crops to iterate, and never returns more embeddings than crops |
| Pipeline.ProcessNewImage | widgets/widget_handlers/facial_recognition/fr_files/facial_recognition.py:187-204 | a successful pass labels the embeddings of the crops of the detected boxes, one label each, in order; it fails exactly when the store or frame is missing, cropping fails or some label fails; a frame with no faces gives an empty list |
| Pipeline.LabelCrops | widgets/widget_files/facial_recognition/fr_files/facial_recognition.py:183-198 | the older labelling step gives one label per crop, in order, each the label of that crop's embedding and a stored name or the sentinel; it fails exactly when some embedding call fails or some embedding cannot be labelled |
| Pipeline.ProcessNewImageLegacy | widgets/widget_files/facial_recognition/fr_files/facial_recognition.py:165-199 | the older pass fails exactly when the store or frame is missing, cropping fails, some crop's embedding call fails, or some embedding cannot be labelled; a successful pass gives, for each detected box in order, the label of its crop's embedding |
| Pipeline.VersionsAgreeWithoutFailedCrops | widgets/widget_files/facial_recognition/fr_files/facial_recognition.py:183-187 | when every embedding call succeeds the two versions label identically |
| Pipeline.LegacyFailsOnOneBadCrop | widgets/widget_files/facial_recognition/fr_files/facial_recognition.py:184-187 | one failed embedding fails the whole older pass |
| Enrollment.CaptureFileName | widgets/widget_handlers/facial_recognition/fr_files/facial_recognition.py:46 | a capture file name starts with the person's name and passes the `.jpg` filter |
| Enrollment.CaptureFileNames | widgets/widget_handlers/facial_recognition/fr_files/facial_recognition.py:69-79 | `count` captures give `count` names, the `i`-th being scan `i`, all `.jpg` |
| Enrollment.CaptureFileNamesDistinct | widgets/widget_files/facial_recognition/fr_files/facial_recognition.py:39-72 | two captures of one person never share a file name |
| Enrollment.EntriesOfSpec | widgets/widget_handlers/facial_recognition/fr_files/facial_recognition.py:170-182 | a directory's entries stay aligned, are all filed under its name, each is the first embedding of a usable image, there are none exactly when no image is usable, and one per `.jpg` when all are usable |
| Enrollment.EntriesOfAppend | widgets/widget_handlers/facial_recognition/fr_files/facial_recognition.py:170-182 | the entries of a listing are those of its first part followed by those of the rest |
| Enrollment.EntriesOfOne | widgets/widget_handlers/facial_recognition/fr_files/facial_recognition.py:171-180 | one image contributes its first embedding under the directory name when it is a usable `.jpg`, and nothing otherwise |
| Enrollment.EnrollPerson | widgets/widget_files/facial_recognition/fr_files/facial_recognition.py:88-100 | the CPU and newer Hailo per-directory loop: aligned lists, one entry at most per `.jpg`, each the first embedding of a usable image |
| Enrollment.EnrollFromSpec | widgets/widget_handlers/facial_recognition/fr_files/facial_recognition.py:167-185 | the accumulation over directories fails exactly when a directory could not be listed, stays aligned, and files entries only under directory names |
| Enrollment.EnrollFromEntries | widgets/widget_handlers/facial_recognition/fr_files/facial_recognition.py:167-185 | every entry is the first embedding of a usable image in a listed directory bearing the entry's name |
| Enrollment.Enroll | widgets/widget_handlers/facial_recognition/fr_files/facial_recognition.py:155-183 | enrollment starts from empty lists and keeps them aligned; it fails exactly when a directory could not be listed; every entry is the first embedding of a usable image of the directory it is filed under |
| Enrollment.EnrollAppend | widgets/widget_files/facial_recognition/fr_files/facial_recognition.py:86-102 | the store follows the listing order: enrolling two listings gives the two stores concatenated |
| Enrollment.DroppedPerson | widgets/widget_files/facial_recognition/fr_files/facial_recognition.py:94-98 | a person none of whose images yields an embedding gets no entry |
| Enrollment.HailoEncoder | widgets/widget_handlers/facial_recognition/fr_files/facial_recognition.py:174-176 | an image fails exactly when detection or one of its crops fails, gives at most one embedding per box, gives none exactly when no embedding call returned, and otherwise its first embedding is that of the first crop whose call returned |
| Enrollment.EnrollHailo | widgets/widget_handlers/facial_recognition/fr_files/facial_recognition.py:152-185 | the newer Hailo enrollment stays aligned and fails exactly on an unlisted directory; each entry is the first arrived embedding of a `.jpg` image whose detection and crops succeeded, in a directory bearing its name |
| Enrollment.UsableHailoImage | widgets/widget_handlers/facial_recognition/fr_files/facial_recognition.py:174-176 | the newer enrollment uses an image exactly when it is a `.jpg`, its detection and crops succeeded, and at least one embedding call on its crops returned |
| Enrollment.HailoEntries | widgets/widget_handlers/facial_recognition/fr_files/facial_recognition.py:167-182 | each entry of the newer enrollment traces back to such an image |
| Enrollment.FaceLoop | widgets/widget_files/facial_recognition/fr_files/facial_recognition.py:127-131 | the embedding variable ends as the last face's embedding when no face raised, and keeps its earlier value when there are no faces |
| Enrollment.LegacyImage | widgets/widget_files/facial_recognition/fr_files/facial_recognition.py:125-138 | one image of the older loop: a failed detection or a face that raises adds nothing; with faces and none raising, the variable becomes the last face's embedding and that embedding is added when non-empty; an image with no face keeps the variable and re-adds whatever non-empty embedding it held |
| Enrollment.LegacyDiffersOnlyWithoutFace | widgets/widget_files/facial_recognition/fr_files/facial_recognition.py:125-138 | the as-written image step and the step with the variable reset add different entries exactly for an image without a face following a held non-empty embedding |
| Enrollment.LegacyPerson | widgets/widget_files/facial_recognition/fr_files/facial_recognition.py:122-138 | the older per-directory loop keeps the lists aligned, files entries under the directory name, and adds at most one entry per `.jpg` file |
| Enrollment.EnrollLegacyHailo | widgets/widget_files/facial_recognition/fr_files/facial_recognition.py:104-139 | the older Hailo enrollment as written stays aligned, fails exactly on an unlisted directory, has at most as many entries as the listing has `.jpg` files, and files every entry under the name of a listed directory |
| Enrollment.LegacyLeaksAcrossImages | widgets/widget_files/facial_recognition/fr_files/facial_recognition.py:127-136 | as written, a person whose image shows no face is enrolled with the previous person's embedding |
| Enrollment.EnrollLegacyHailoCorrected | widgets/widget_files/facial_recognition/fr_files/facial_recognition.py:104-139 | with the variable reset per image: aligned, and fails exactly on an unlisted directory |
| Enrollment.CorrectedImageWithoutFace | widgets/widget_files/facial_recognition/fr_files/facial_recognition.py:127-132 | with the reset, an image without a face contributes nothing |
| Enrollment.CorrectedUsesLastFace | widgets/widget_files/facial_recognition/fr_files/facial_recognition.py:127-136 | with the reset, an image's entry is its own last face |
| Enrollment.CorrectedDoesNotLeak | widgets/widget_files/facial_recognition/fr_files/facial_recognition.py:127-136 | with the reset, the leaking example enrolls only the person whose image shows a face |
| Weather.LocationString | widgets/widget_handlers/weather/weather_client.py:89-93 | the location is the name, ", " and the region |
| Weather.ForecastRequest | widgets/widget_handlers/weather/weather_client.py:38-42 | the forecast URL is the base URL plus `forecast.json`, queried for Haverstraw with five days |
| Weather.RefreshMinutes | widgets/widget_handlers/weather/weather_client.py:74-76 | within an hour, the refresh minutes are exactly 1, 17, 33 and 49 |
| Weather.Initial | widgets/widget_handlers/weather/weather_client.py:16-22 | a new client's forecast and file view are exactly the JSON read from the forecast file; it is up to date and has no last refresh |
| Weather.CheckForTempUpdate | widgets/widget_handlers/weather/weather_client.py:78-86 | a stale client reloads the file; a request starts exactly when a refresh is due and not yet started this minute, and records the minute |
| Weather.NoSecondRequestInSameMinute | widgets/widget_handlers/weather/weather_client.py:84-86 | a second check in the same minute never requests again |
| Weather.RequestAndSave | widgets/widget_handlers/weather/weather_client.py:61-66 | the flag is cleared exactly when a truthy response arrived; the file changes only to that response |
| Weather.FetchThenCheckReloads | widgets/widget_handlers/weather/weather_client.py:61-82 | a saved response reaches the in-memory forecast at the next check |
| Weather.CurrentIconPath | widgets/widget_handlers/weather/weather_client.py:95-106 | the day/night icon when it exists, else the plain icon, else the cloudy icon; the result exists or is the cloudy icon |
| Weather.ForecastIconPath | widgets/widget_handlers/weather/weather_client.py:133-139 | the code's icon when it exists, else the cloudy icon |
| Weather.IconsAgreeWithoutDayNight | widgets/widget_handlers/weather/weather_client.py:95-139 | without a day/night variant the two icon choices agree |
| Weather.DegreesF | widgets/widget_handlers/weather/weather_client.py:108-111 | a temperature prints as its digits followed by the degree sign and `F` |
| Weather.Forecast5Day | widgets/widget_handlers/weather/weather_client.py:141-157 | the first forecast day is skipped and every later day gives one entry, in order |
| Weather.LastDayIndex | widgets/widget_handlers/weather/weather_client.py:115-118 | the loop keeps the last day dated today; none exactly when no day is |
| Weather.DailyTemps | widgets/widget_handlers/weather/weather_client.py:113-121 | the high and low of the last day dated today; an error exactly when no day is dated today |
| LegacyWeather.CurrentWeatherRequest | widgets/widget_files/weather/weather_client.py:18-26 | the URL is the base URL plus `current.json`, queried with `key`, `q` = Haverstraw and `aqi` = no |
| LegacyWeather.UpdateHour | widgets/widget_files/weather/weather_client.py:41-42 | the hour extraction fails exactly when the stamp has no space, and yields a text with no space or colon |
| LegacyWeather.UpdateHourOfStamp | widgets/widget_files/weather/weather_client.py:42 | for a stamp "date hour:rest" the extracted hour is the hour text |
| LegacyWeather.CheckForUpdate | widgets/widget_files/weather/weather_client.py:35-44 | a missing cache is fetched before it is read; the record read is refetched exactly when its hour text differs from the clock's, and is kept otherwise; at most two requests; it raises exactly when neither the cache nor the first fetch gave a record, the stamp has no space, or a needed refetch fails |
| LegacyWeather.HourComparedAsText | widgets/widget_files/weather/weather_client.py:36-44 | the comparison is textual: a stamp hour "9" differs from the clock's "09" and causes a refetch |
| LegacyWeather.Location | widgets/widget_files/weather/weather_client.py:46-52 | the older client's location line is the one the newer client formats: the name, ", " and the region |
| Strings.NatToStringInjective | widgets/widget_handlers/facial_recognition/fr_files/facial_recognition.py:46 | different scan numbers print differently |
| Strings.SplitJoin | widgets/widget_files/weather/weather_client.py:42 | `split` followed by joining with the same separator gives back the text |
| Strings.JoinSnoc | widgets/widgets.py:37-41 | joining one more name adds one separator and the name at the end |
| Widgets.FaceRecName | widgets/widgets.py:27-46 | nothing is drawn for an empty frame; otherwise exactly one text is appended, equal to the names joined by ", " |
| Widgets.NamesLineEnds | widgets/widgets.py:34-41 | the names line starts with the first name and ends with the last: no leading or trailing separator |
| Widgets.DateAndTime | widgets/widgets.py:10-25 | exactly two items are appended, the date line then the time line |
| Widgets.ImportImageUrl | main.py:86-87 | an icon is fetched from "https:" followed by its reference |
| Widgets.WeatherAndLocation | widgets/widgets.py:48-67 | the update check runs first and its error propagates; then the location, the icon and the temperature with " F" are appended, in that order |

## Left out

- Threads, locks, `stop_event`, `sleep` and the daemon loops. One loop iteration is `Handler.Tick`; concurrency is not modelled.
- Reading and publishing copies of the presence list is not modelled. Values are immutable here, so the copy cannot alias the recognizer's list.
- `_safe_infer`'s thread-pool timeout: a model call is a function returning `Option`, where `None` is a timeout or an exception.
- The camera, model loading (`initialize_models`, `picam2_init`, `_setup_model`) and `cv2.resize`. They are foreign calls. The frame and the model outputs are parameters. A resize of an empty region is taken to raise.
- The `face_recognition` library path (`process_new_image_cpu`). Its tolerance and distance live in a library that is not part of this model. CPU enrollment is modelled through an encoder parameter.
- Floating point and `sqrt`. Embeddings are real sequences, and distances are compared squared.
- `int()` of float temperatures is not modelled. Temperatures reach the weather functions as integers, or as the text `str()` produced.
- Date formatting with `strftime`/`strptime`. Dates, times and the clock's hour and minute are given texts and integers.
- JSON file I/O, `os.listdir` ordering and `os.path.exists`:
  - files are JSON values;
  - a listing is a sequence in the order given;
  - existence is a predicate or an `Option`.
- Write failures of the store file are not modelled. For the weather file, a failed write is the `writeOk` parameter.
- The interactive first-run bootstrap (`input()` and the countdown prints) is not modelled. A listing is given as it stands.
- `add_new_face`. It only chains a capture and an enrollment, both modelled.
- pygame rendering and layout are not modelled. A draw item is its text or the address of its picture.
- The font handler, the Flask app and the singleton construction of the widget handlers.
- `get_current_location_weather` is not modelled. It only calls the checked members in sequence.
- Store.Load: stricter than the program for files it never writes. A non-number inside an embedding or a non-string name makes the load fail, where Python would carry the value along.
- Matcher.Label: numpy broadcasting is not modelled. A length-1 array against a longer one is treated as a failure, like any other length mismatch.
- Pipeline.EncodeAll: the truthiness test of a model result is read as "the call returned something". The extraction `results[0]['data'][0]` from a returned result is taken never to raise; if it did raise, the whole `_encode_faces` would fail and the image would be skipped, which is not modelled.
- Handler.RunRecognitionLegacy: facial_recognition/fr_files/facial_recognition.py, the recogniser this handler imports, is not part of this model. The older widget's recogniser, which defines the same `JSON_PATH`, stands for it.
- `get_current_temp_f` of the older weather client is a read of two fields of the cached record. `str()` of the number is not modelled: the record holds the text it produces (`LegacyWeather.CurrentWeather`).
- Widgets.WeatherAndLocation: the icon download in `import_image` (`requests.get` in main.py) is taken to succeed. A failed request would raise out of the draw loop, as a failed update check does; that path is not modelled.
- Enrollment.LegacyImage: `if encodings:` is read as "the embedding is non-empty". For a numpy vector of more than one component Python raises `ValueError` there instead, which the per-image `except` would catch; that path is not modelled.
- Matcher.SqDistSelf: the converse, that distance zero implies equal embeddings, is not stated.

## Findings

| source | as written | input that shows it | evidently intended | confidence | as-written member | corrected member |
|---|---|---|---|---|---|---|
| widgets/widget_files/facial_recognition/fr_files/facial_recognition.py:127-136 | `encodings` is assigned inside the per-face loop and never reset between images, so `if encodings:` sees the previous image's embedding when an image has no detected face | directory `alice` with `a.jpg` showing one face with embedding `e`, then directory `bob` with `b.jpg` showing no face: the store becomes `[e, e]` / `["alice", "bob"]` | each image contributes only its own face; an image without a face adds nothing | not executed | Enrollment.LegacyLeaksAcrossImages | Enrollment.CorrectedDoesNotLeak |
| widgets/widget_files/facial_recognition/facial_rec.py:30 | `_run_recognition` reads `self.facial_recognition._JSON_PATH`, but the recogniser class it uses defines `JSON_PATH` (widgets/widget_files/facial_recognition/fr_files/facial_recognition.py:16); the `AttributeError` is raised before the `try` and ends the worker thread | any first pass, whatever the store file, the listing and the frame | read `JSON_PATH`, as the mirror's own handler does (facial_recognition/facial_rec.py:17) | not executed | Handler.WidgetNeverSeesAnyone | Handler.WidgetCorrectedSeesFaces |

=== FILE: enrollment.dfy ===
/** Enrollment: capturing reference images of a person and rebuilding the
    known-face store from every reference image on disk.

    The image directory is given as a listing: one entry per person
    directory, in listing order, holding that directory's file names, or
    `None` when listing it raised.  The models are functions from a
    (person, file) pair to what they produced for that image.
 */
module Enrollment {
  import opened Wrappers
  import opened Strings
  import opened Matcher
  import opened Store
  import opened Pipeline

  const JpgSuffix: string := ".jpg"

  /** `_capture_and_save`: the name of the `i`-th capture of a person. */
  function CaptureFileName(person: string, i: nat): (f: string)
    ensures EndsWith(f, JpgSuffix)
    ensures |f| > |person| && f[..|person|] == person
  {
    EndsWithAppend(person + "_scan" + NatToString(i), JpgSuffix);
    person + "_scan" + NatToString(i) + JpgSuffix
  }

  /** `capture_new_face`: the files written for `count` captures, scan 0
      first.  Every one passes the enrollment filter and no two collide. */
  function CaptureFileNames(person: string, count: nat): (fs: seq<string>)
    ensures |fs| == count
    ensures forall i :: 0 <= i < count ==> fs[i] == CaptureFileName(person, i)
    ensures forall i :: 0 <= i < count ==> EndsWith(fs[i], JpgSuffix)
    decreases count
  {
    if count == 0 then [] else CaptureFileNames(person, count - 1) + [CaptureFileName(person, count - 1)]
  }

  /** Two captures of the same person never get the same file name. */
  lemma CaptureFileNamesDistinct(person: string, i: nat, j: nat)
    requires CaptureFileName(person, i) == CaptureFileName(person, j)
    ensures i == j
  {
    var a, b := NatToString(i), NatToString(j);
    var p := person + "_scan";
    var fa, fb := p + a + JpgSuffix, p + b + JpgSuffix;
    assert |a| == |b|;
    assert fa[|p|..|p| + |a|] == a;
    assert fb[|p|..|p| + |b|] == b;
    NatToStringInjective(i, j);
  }

  /** One person directory of the reference images. */
  datatype PersonDir = PersonDir(name: string, files: Option<seq<string>>)

  /** What the models made of one reference image: the embeddings found, or
      `None` when a step raised. */
  type ImageEncoder = (string, string) -> Option<seq<Embedding>>

  /** The image gives an entry: it is a `.jpg` and at least one embedding
      came out of it. */
  predicate Usable(person: string, f: string, encode: ImageEncoder) {
    EndsWith(f, JpgSuffix) && encode(person, f).Some? && |encode(person, f).value| > 0
  }

  function Concat(a: Store, b: Store): Store {
    Store(a.encodings + b.encodings, a.names + b.names)
  }

  function CountJpg(files: seq<string>): (n: nat)
    ensures n <= |files|
    decreases |files|
  {
    if |files| == 0 then 0 else (if EndsWith(files[0], JpgSuffix) then 1 else 0) + CountJpg(files[1..])
  }

  /** The accumulation loop over one person directory, in listing order. */
  function EntriesOf(person: string, files: seq<string>, encode: ImageEncoder): Store
    decreases |files|
  {
    if |files| == 0 then Store([], [])
    else
      var rest := EntriesOf(person, files[1..], encode);
      if Usable(person, files[0], encode) then
        Store([encode(person, files[0]).value[0]] + rest.encodings, [person] + rest.names)
      else rest
  }

  lemma {:induction false} EntriesOfSpec(person: string, files: seq<string>, encode: ImageEncoder)
    ensures var s := EntriesOf(person, files, encode);
      && Aligned(s)
      && |s.encodings| <= CountJpg(files)
      && (forall i :: 0 <= i < |s.names| ==> s.names[i] == person)
      && (forall i :: 0 <= i < |s.encodings| ==>
            exists f :: f in files && Usable(person, f, encode) && s.encodings[i] == encode(person, f).value[0])
      && (|s.encodings| == 0 <==> forall f :: f in files ==> !Usable(person, f, encode))
      && ((forall f :: f in files && EndsWith(f, JpgSuffix) ==> Usable(person, f, encode)) ==>
            |s.encodings| == CountJpg(files))
    decreases |files|
  {
    if |files| > 0 {
      EntriesOfSpec(person, files[1..], encode);
      var rest := EntriesOf(person, files[1..], encode);
      var f := files[0];
      assert forall g :: g in files <==> g == f || g in files[1..];
      if Usable(person, f, encode) {
        var s := EntriesOf(person, files, encode);
        assert forall i :: 1 <= i < |s.encodings| ==> s.encodings[i] == rest.encodings[i - 1];
      }
    }
  }

  /** The entries of one person directory: for each usable image, in listing
      order, its first embedding under the directory's name.  Both lists grow
      together; an image that fails adds to neither. */
  function EnrollPerson(person: string, files: seq<string>, encode: ImageEncoder): (s: Store)
    ensures Aligned(s)
    ensures |s.encodings| <= CountJpg(files)
    ensures forall i :: 0 <= i < |s.names| ==> s.names[i] == person
    ensures forall i :: 0 <= i < |s.encodings| ==>
      exists f :: f in files && Usable(person, f, encode) && s.encodings[i] == encode(person, f).value[0]
    ensures |s.encodings| == 0 <==> forall f :: f in files ==> !Usable(person, f, encode)
    ensures (forall f :: f in files && EndsWith(f, JpgSuffix) ==> Usable(person, f, encode)) ==>
      |s.encodings| == CountJpg(files)
  {
    EntriesOfSpec(person, files, encode);
    EntriesOf(person, files, encode)
  }

  /** The entries of a directory listing are those of its first part
      followed by those of the rest: each image contributes on its own, in
      listing order. */
  lemma {:induction false} EntriesOfAppend(person: string, a: seq<string>, b: seq<string>, encode: ImageEncoder)
    ensures EntriesOf(person, a + b, encode) == Concat(EntriesOf(person, a, encode), EntriesOf(person, b, encode))
    decreases |a|
  {
    if |a| == 0 {
      assert a + b == b;
    } else {
      assert (a + b)[0] == a[0];
      assert (a + b)[1..] == a[1..] + b;
      EntriesOfAppend(person, a[1..], b, encode);
    }
  }

  /** What one image contributes: its first embedding under the directory's
      name when it is usable, nothing otherwise. */
  lemma EntriesOfOne(person: string, f: string, encode: ImageEncoder)
    ensures EntriesOf(person, [f], encode)
      == if Usable(person, f, encode) then Store([encode(person, f).value[0]], [person]) else Store([], [])
  {
    assert [f][1..] == [];
  }

  /** The accumulation loop over person directories, in listing order. */
  function EnrollFrom(people: seq<PersonDir>, encode: ImageEncoder): Option<Store>
    decreases |people|
  {
    if |people| == 0 then Some(Store([], []))
    else match (people[0].files, EnrollFrom(people[1..], encode))
      case (Some(files), Some(rest)) => Some(Concat(EntriesOf(people[0].name, files, encode), rest))
      case _ => None
  }

  lemma {:induction false} EnrollFromSpec(people: seq<PersonDir>, encode: ImageEncoder)
    ensures EnrollFrom(people, encode).None? <==> exists k :: 0 <= k < |people| && people[k].files.None?
    ensures EnrollFrom(people, encode).Some? ==> Aligned(EnrollFrom(people, encode).value)
    ensures EnrollFrom(people, encode).Some? ==> forall i :: 0 <= i < |EnrollFrom(people, encode).value.names| ==>
      exists k :: 0 <= k < |people| && people[k].name == EnrollFrom(people, encode).value.names[i]
    decreases |people|
  {
    if |people| > 0 {
      EnrollFromSpec(people[1..], encode);
      assert forall k :: 0 <= k < |people| - 1 ==> people[1..][k] == people[k + 1];
      if EnrollFrom(people[1..], encode).None? {
        var k :| 0 <= k < |people| - 1 && people[1..][k].files.None?;
        assert people[k + 1].files.None?;
      } else if people[0].files.Some? {
        EntriesOfSpec(people[0].name, people[0].files.value, encode);
        var here := EntriesOf(people[0].name, people[0].files.value, encode);
        var rest := EnrollFrom(people[1..], encode).value;
        var s := Concat(here, rest);
        assert forall i :: |here.names| <= i < |s.names| ==> s.names[i] == rest.names[i - |here.names|];
      }
    }
  }

  /** The entry `(e, n)` comes from a usable image in a listed directory
      named `n`: it is that image's first embedding. */
  ghost predicate EntryFrom(people: seq<PersonDir>, encode: ImageEncoder, e: Embedding, n: string) {
    exists k, f :: 0 <= k < |people| && people[k].files.Some? && f in people[k].files.value
      && people[k].name == n && Usable(n, f, encode) && e == encode(n, f).value[0]
  }

  lemma {:induction false} EnrollFromEntries(people: seq<PersonDir>, encode: ImageEncoder)
    requires EnrollFrom(people, encode).Some?
    ensures Aligned(EnrollFrom(people, encode).value)
    ensures forall i :: 0 <= i < |EnrollFrom(people, encode).value.names| ==>
      EntryFrom(people, encode, EnrollFrom(people, encode).value.encodings[i], EnrollFrom(people, encode).value.names[i])
    decreases |people|
  {
    EnrollFromSpec(people, encode);
    if |people| > 0 {
      EnrollFromHead(people, encode);
      var files := people[0].files.value;
      var here := EntriesOf(people[0].name, files, encode);
      var rest := EnrollFrom(people[1..], encode).value;
      var s := EnrollFrom(people, encode).value;
      assert s == Concat(here, rest);
      EntriesOfSpec(people[0].name, files, encode);
      EnrollFromEntries(people[1..], encode);
      forall i | 0 <= i < |s.names|
        ensures EntryFrom(people, encode, s.encodings[i], s.names[i])
      {
        if i < |here.names| {
          assert s.encodings[i] == here.encodings[i] && s.names[i] == people[0].name;
          var f :| f in files && Usable(people[0].name, f, encode) && here.encodings[i] == encode(people[0].name, f).value[0];
          assert people[0].files.Some? && f in people[0].files.value;
        } else {
          var j := i - |here.names|;
          assert s.encodings[i] == rest.encodings[j] && s.names[i] == rest.names[j];
          assert EntryFrom(people[1..], encode, rest.encodings[j], rest.names[j]);
          var k, f :| 0 <= k < |people[1..]| && people[1..][k].files.Some? && f in people[1..][k].files.value
            && people[1..][k].name == rest.names[j] && Usable(rest.names[j], f, encode)
            && rest.encodings[j] == encode(rest.names[j], f).value[0];
          assert people[k + 1] == people[1..][k];
        }
      }
    }
  }

  /** Rebuild the whole store from the listing, starting from empty lists.
      `None` when a directory could not be listed: the run stops and the
      store file is not written. */
  function Enroll(people: seq<PersonDir>, encode: ImageEncoder): (r: Option<Store>)
    ensures r.None? <==> exists k :: 0 <= k < |people| && people[k].files.None?
    ensures r.Some? ==> Aligned(r.value)
    ensures r.Some? ==> forall i :: 0 <= i < |r.value.names| ==>
      exists k :: 0 <= k < |people| && people[k].name == r.value.names[i]
    ensures r.Some? ==> forall i :: 0 <= i < |r.value.names| ==>
      EntryFrom(people, encode, r.value.encodings[i], r.value.names[i])
  {
    EnrollFromSpec(people, encode);
    var r := EnrollFrom(people, encode);
    if r.Some? then EnrollFromEntries(people, encode); r else r
  }

  /** Enrolling two listings one after the other gives the two stores
      concatenated: the store follows the listing order. */
  lemma {:induction false} EnrollAppend(a: seq<PersonDir>, b: seq<PersonDir>, encode: ImageEncoder)
    requires Enroll(a, encode).Some? && Enroll(b, encode).Some?
    ensures Enroll(a + b, encode) == Some(Concat(Enroll(a, encode).value, Enroll(b, encode).value))
    decreases |a|
  {
    EnrollFromAppend(a, b, encode);
  }

  lemma {:induction false} EnrollFromAppend(a: seq<PersonDir>, b: seq<PersonDir>, encode: ImageEncoder)
    requires EnrollFrom(a, encode).Some? && EnrollFrom(b, encode).Some?
    ensures EnrollFrom(a + b, encode) == Some(Concat(EnrollFrom(a, encode).value, EnrollFrom(b, encode).value))
    decreases |a|
  {
    var B := EnrollFrom(b, encode).value;
    if |a| == 0 {
      assert a + b == b;
      assert Concat(Store([], []), B) == B;
    } else {
      assert a[0].files.Some? && EnrollFrom(a[1..], encode).Some? by {
        EnrollFromHead(a, encode);
      }
      var here := EntriesOf(a[0].name, a[0].files.value, encode);
      var A' := EnrollFrom(a[1..], encode).value;
      assert EnrollFrom(a, encode).value == Concat(here, A') by {
        EnrollFromHead(a, encode);
      }
      assert EnrollFrom(a + b, encode) == Some(Concat(here, Concat(A', B))) by {
        EnrollFromAppend(a[1..], b, encode);
        assert (a + b)[0] == a[0];
        assert (a + b)[1..] == a[1..] + b;
        EnrollFromHead(a + b, encode);
      }
      ConcatAssoc(here, A', B);
    }
  }

  lemma ConcatAssoc(x: Store, y: Store, z: Store)
    ensures Concat(x, Concat(y, z)) == Concat(Concat(x, y), z)
  {
    assert x.encodings + (y.encodings + z.encodings) == (x.encodings + y.encodings) + z.encodings;
    assert x.names + (y.names + z.names) == (x.names + y.names) + z.names;
  }

  /** The first directory's entries come first. */
  lemma EnrollFromHead(people: seq<PersonDir>, encode: ImageEncoder)
    requires |people| > 0
    ensures EnrollFrom(people, encode).Some? <==>
      people[0].files.Some? && EnrollFrom(people[1..], encode).Some?
    ensures EnrollFrom(people, encode).Some? ==>
      EnrollFrom(people, encode).value
        == Concat(EntriesOf(people[0].name, people[0].files.value, encode), EnrollFrom(people[1..], encode).value)
  {
  }

  /** A person none of whose images is usable gets no entry at all. */
  lemma DroppedPerson(p: PersonDir, encode: ImageEncoder)
    requires p.files.Some?
    requires forall f :: f in p.files.value ==> !Usable(p.name, f, encode)
    ensures Enroll([p], encode) == Some(Store([], []))
  {
    assert [p][1..] == [];
    EntriesOfSpec(p.name, p.files.value, encode);
    var here := EntriesOf(p.name, p.files.value, encode);
    assert here.encodings == [] && here.names == [];
    assert EnrollFrom([p], encode) == Some(Concat(here, Store([], [])));
  }

  /** `learn_new_faces_hailo` of the newer code, per image: bounded
      detection, cropping and bounded embedding.  An image fails exactly when
      its detection or one of its crops fails, gives no embedding when no
      embedding call returned, and otherwise contributes the embedding of the
      first crop whose call returned. */
  function HailoEncoder(detect: (string, string) -> Option<Detections>,
                        recog: Image -> Option<Embedding>): (encode: ImageEncoder)
    ensures forall p, f :: encode(p, f).Some? <==> CroppedFaces(detect(p, f)).Some?
    ensures forall p, f :: encode(p, f).Some? ==>
      detect(p, f).Some? && |encode(p, f).value| <= |detect(p, f).value.boxes|
    ensures forall p, f :: encode(p, f).Some? ==>
      (|encode(p, f).value| == 0 <==>
         forall i :: 0 <= i < |CroppedFaces(detect(p, f)).value| ==> recog(CroppedFaces(detect(p, f)).value[i]).None?)
    ensures forall p, f :: encode(p, f).Some? && |encode(p, f).value| > 0 ==>
      FirstEmbedding(CroppedFaces(detect(p, f)).value, recog, encode(p, f).value[0])
  {
    var encode := (p: string, f: string) => EncodeFaces(CroppedFaces(detect(p, f)), recog);
    forall p, f | CroppedFaces(detect(p, f)).Some?
      ensures var es := EncodeAll(CroppedFaces(detect(p, f)).value, recog);
        && (|es| == 0 <==> forall i :: 0 <= i < |CroppedFaces(detect(p, f)).value| ==> recog(CroppedFaces(detect(p, f)).value[i]).None?)
        && (|es| > 0 ==> FirstEmbedding(CroppedFaces(detect(p, f)).value, recog, es[0]))
    {
      EncodeAllFirst(CroppedFaces(detect(p, f)).value, recog);
    }
    encode
  }

  /** The newer Hailo enrollment: every entry is filed under the name of a
      listed directory, and is the embedding of the first embedded crop of
      one of that directory's `.jpg` images whose detection and crops all
      succeeded. */
  function EnrollHailo(people: seq<PersonDir>, detect: (string, string) -> Option<Detections>,
                       recog: Image -> Option<Embedding>): (r: Option<Store>)
    ensures r.Some? ==> Aligned(r.value)
    ensures r.None? <==> exists k :: 0 <= k < |people| && people[k].files.None?
    ensures r.Some? ==> forall i :: 0 <= i < |r.value.names| ==> HailoEntry(people, detect, recog, r.value.encodings[i], r.value.names[i])
  {
    var r := Enroll(people, HailoEncoder(detect, recog));
    if r.Some? then HailoEntries(people, detect, recog, r.value); r else r
  }

  /** An image the newer enrollment uses is exactly a `.jpg` whose
      detection and crops succeeded and one of whose crops was embedded. */
  lemma UsableHailoImage(p: string, f: string, detect: (string, string) -> Option<Detections>,
                         recog: Image -> Option<Embedding>)
    ensures Usable(p, f, HailoEncoder(detect, recog)) <==>
      && EndsWith(f, JpgSuffix)
      && detect(p, f).Some?
      && CroppedFaces(detect(p, f)).Some?
      && exists i :: 0 <= i < |CroppedFaces(detect(p, f)).value|
           && recog(CroppedFaces(detect(p, f)).value[i]).Some?
  {
    var encode := HailoEncoder(detect, recog);
    if CroppedFaces(detect(p, f)).Some? {
      assert encode(p, f).Some?;
      assert detect(p, f).Some?;
    }
  }

  ghost predicate HailoEntry(people: seq<PersonDir>, detect: (string, string) -> Option<Detections>,
                             recog: Image -> Option<Embedding>, e: Embedding, n: string) {
    exists k, f :: 0 <= k < |people| && people[k].files.Some? && f in people[k].files.value
      && people[k].name == n && EndsWith(f, JpgSuffix)
      && CroppedFaces(detect(n, f)).Some? && FirstEmbedding(CroppedFaces(detect(n, f)).value, recog, e)
  }

  lemma HailoEntries(people: seq<PersonDir>, detect: (string, string) -> Option<Detections>,
                     recog: Image -> Option<Embedding>, s: Store)
    requires Enroll(people, HailoEncoder(detect, recog)) == Some(s)
    ensures forall i :: 0 <= i < |s.names| ==> HailoEntry(people, detect, recog, s.encodings[i], s.names[i])
  {
    var encode := HailoEncoder(detect, recog);
    forall i | 0 <= i < |s.names|
      ensures HailoEntry(people, detect, recog, s.encodings[i], s.names[i])
    {
      assert EntryFrom(people, encode, s.encodings[i], s.names[i]);
      var k, f :| 0 <= k < |people| && people[k].files.Some? && f in people[k].files.value
        && people[k].name == s.names[i] && Usable(s.names[i], f, encode) && s.encodings[i] == encode(s.names[i], f).value[0];
      assert CroppedFaces(detect(s.names[i], f)).Some?;
    }
  }

  /** The Hailo enrollment of the older code.  Each model call's result for
      one image: `None` when detection raised, otherwise one entry per
      detected face, `None` when cropping or embedding that face raised. */
  type FaceEncoder = (string, string) -> Option<seq<Option<Embedding>>>

  /** The variable holding "the embedding" after one image, given its value
      before: every face that is embedded overwrites it, a face that raises
      stops the image early.  The second component tells whether the image
      raised. */
  function FaceLoop(carried: Option<Embedding>, faces: seq<Option<Embedding>>): (r: (Option<Embedding>, bool))
    ensures !r.1 <==> forall i :: 0 <= i < |faces| ==> faces[i].Some?
    ensures !r.1 && |faces| > 0 ==> r.0 == faces[|faces| - 1]
    ensures !r.1 && |faces| == 0 ==> r.0 == carried
    decreases |faces|
  {
    if |faces| == 0 then (carried, false)
    else match faces[0]
      case None => (carried, true)
      case Some(e) =>
        var r := FaceLoop(Some(e), faces[1..]);
        assert forall i :: 1 <= i < |faces| ==> faces[i] == faces[1..][i - 1];
        r
  }

  /** One image of the older Hailo enrollment, as written: the new value of
      the carried variable, and the entry it adds if any.  An image with no
      detected face re-uses whatever the variable held from an earlier
      image. */
  function LegacyImage(carried: Option<Embedding>, faces: Option<seq<Option<Embedding>>>)
    : (r: (Option<Embedding>, Option<Embedding>))
    ensures r.1.Some? ==> |r.1.value| > 0
    ensures faces == Some([]) && carried.Some? && |carried.value| > 0 ==> r.1 == carried
    ensures faces == Some([]) ==>
      r.0 == carried && r.1 == (if carried.Some? && |carried.value| > 0 then carried else None)
    ensures faces.None? ==> r == (carried, None)
    ensures faces.Some? && (exists i :: 0 <= i < |faces.value| && faces.value[i].None?) ==> r.1.None?
    ensures faces.Some? && |faces.value| > 0 && (forall i :: 0 <= i < |faces.value| ==> faces.value[i].Some?) ==>
      var last := faces.value[|faces.value| - 1];
      r.0 == last && r.1 == (if |last.value| > 0 then last else None)
  {
    match faces
    case None => (carried, None)
    case Some(fs) =>
      var (v, raised) := FaceLoop(carried, fs);
      if raised then (v, None)
      else if v.Some? && |v.value| > 0 then (v, v)
      else (v, None)
  }

  /** The as-written step and the step with the variable reset add
      different entries exactly for an image without a face that follows a
      held embedding: the leak is confined to that case. */
  lemma LegacyDiffersOnlyWithoutFace(carried: Option<Embedding>, faces: Option<seq<Option<Embedding>>>)
    ensures LegacyImage(carried, faces).1 != LegacyImage(None, faces).1 <==>
      faces == Some([]) && carried.Some? && |carried.value| > 0
  {
  }

  function LegacyPerson(carried: Option<Embedding>, person: string, files: seq<string>, encode: FaceEncoder)
    : (r: (Option<Embedding>, Store))
    ensures Aligned(r.1)
    ensures forall i :: 0 <= i < |r.1.names| ==> r.1.names[i] == person
    ensures |r.1.encodings| <= CountJpg(files)
    decreases |files|
  {
    if |files| == 0 then (carried, Store([], []))
    else if !EndsWith(files[0], JpgSuffix) then LegacyPerson(carried, person, files[1..], encode)
    else
      var (c, added) := LegacyImage(carried, encode(person, files[0]));
      var (c', rest) := LegacyPerson(c, person, files[1..], encode);
      match added
      case None => (c', rest)
      case Some(e) => (c', Store([e] + rest.encodings, [person] + rest.names))
  }

  /** The number of `.jpg` files over all listed directories. */
  function JpgInListing(people: seq<PersonDir>): nat
    decreases |people|
  {
    if |people| == 0 then 0
    else (if people[0].files.Some? then CountJpg(people[0].files.value) else 0) + JpgInListing(people[1..])
  }

  function LegacyFrom(carried: Option<Embedding>, people: seq<PersonDir>, encode: FaceEncoder): (r: Option<Store>)
    ensures r.Some? ==> Aligned(r.value)
    ensures r.Some? ==> |r.value.encodings| <= JpgInListing(people)
    ensures r.Some? ==> forall i :: 0 <= i < |r.value.names| ==>
      exists k :: 0 <= k < |people| && people[k].name == r.value.names[i]
    decreases |people|
  {
    if |people| == 0 then Some(Store([], []))
    else match people[0].files
      case None => None
      case Some(files) =>
        var (c, here) := LegacyPerson(carried, people[0].name, files, encode);
        match LegacyFrom(c, people[1..], encode)
        case None => None
        case Some(rest) => Some(Concat(here, rest))
  }

  /** `learn_new_faces_hailo` of the older code as written: the embedding
      variable is not reset between images. */
  function EnrollLegacyHailo(people: seq<PersonDir>, encode: FaceEncoder): (r: Option<Store>)
    ensures r.Some? ==> Aligned(r.value)
    ensures r.None? <==> exists k :: 0 <= k < |people| && people[k].files.None?
    ensures r.Some? ==> |r.value.encodings| <= JpgInListing(people)
    ensures r.Some? ==> forall i :: 0 <= i < |r.value.names| ==>
      exists k :: 0 <= k < |people| && people[k].name == r.value.names[i]
  {
    LegacyNoneMeansUnlisted(None, people, encode);
    LegacyFrom(None, people, encode)
  }

  lemma {:induction false} LegacyNoneMeansUnlisted(carried: Option<Embedding>, people: seq<PersonDir>, encode: FaceEncoder)
    ensures LegacyFrom(carried, people, encode).None? <==> exists k :: 0 <= k < |people| && people[k].files.None?
    decreases |people|
  {
    if |people| > 0 && people[0].files.Some? {
      var (c, here) := LegacyPerson(carried, people[0].name, people[0].files.value, encode);
      LegacyNoneMeansUnlisted(c, people[1..], encode);
      assert forall k :: 0 < k < |people| ==> people[k] == people[1..][k - 1];
      if LegacyFrom(c, people[1..], encode).None? {
        var k :| 0 <= k < |people| - 1 && people[1..][k].files.None?;
        assert people[k + 1].files.None?;
      }
    }
  }

  /** The older enrollment files another person's face under a name: when
      Alice's image shows a face and Bob's shows none, Bob is enrolled with
      Alice's embedding. */
  lemma LegacyLeaksAcrossImages(e: Embedding, encode: FaceEncoder)
    requires |e| > 0
    requires encode("alice", "a.jpg") == Some([Some(e)])
    requires encode("bob", "b.jpg") == Some([])
    ensures EnrollLegacyHailo([PersonDir("alice", Some(["a.jpg"])), PersonDir("bob", Some(["b.jpg"]))], encode)
         == Some(Store([e, e], ["alice", "bob"]))
  {
    EndsWithAppend("a", JpgSuffix);
    EndsWithAppend("b", JpgSuffix);
    assert "a" + JpgSuffix == "a.jpg";
    assert "b" + JpgSuffix == "b.jpg";
    var people := [PersonDir("alice", Some(["a.jpg"])), PersonDir("bob", Some(["b.jpg"]))];
    assert people[1..] == [PersonDir("bob", Some(["b.jpg"]))];
    assert people[1..][1..] == [];
    assert ["a.jpg"][1..] == [];
    assert ["b.jpg"][1..] == [];
    assert FaceLoop(Some(e), []) == (Some(e), false);
    assert [Some(e)][1..] == [];
    assert FaceLoop(None, [Some(e)]) == (Some(e), false);
    assert LegacyImage(None, Some([Some(e)])) == (Some(e), Some(e));
    assert LegacyImage(Some(e), Some([])) == (Some(e), Some(e));
    assert EndsWith("a.jpg", JpgSuffix) && EndsWith("b.jpg", JpgSuffix);
    assert LegacyPerson(Some(e), "alice", [], encode) == (Some(e), Store([], []));
    assert LegacyPerson(Some(e), "bob", [], encode) == (Some(e), Store([], []));
    assert [e] + [] == [e] && ["alice"] + [] == ["alice"] && ["bob"] + [] == ["bob"];
    assert LegacyPerson(None, "alice", ["a.jpg"], encode) == (Some(e), Store([e], ["alice"]));
    assert LegacyPerson(Some(e), "bob", ["b.jpg"], encode) == (Some(e), Store([e], ["bob"]));
    assert LegacyFrom(Some(e), [], encode) == Some(Store([], []));
    assert LegacyFrom(Some(e), people[1..], encode) == Some(Concat(Store([e], ["bob"]), Store([], [])));
    assert Concat(Store([e], ["bob"]), Store([], [])) == Store([e], ["bob"]);
    assert LegacyFrom(None, people, encode) == Some(Concat(Store([e], ["alice"]), Store([e], ["bob"])));
    assert [e] + [e] == [e, e] && ["alice"] + ["bob"] == ["alice", "bob"];
    assert EnrollLegacyHailo(people, encode) == LegacyFrom(None, people, encode);
  }

  /** The older enrollment with the variable reset for every image, as the
      one-face-per-reference-image assumption intends: an image contributes
      the embedding of its last face, and an image without a face
      contributes nothing. */
  function LegacyEncoder(encode: FaceEncoder): (enc: ImageEncoder)
    ensures forall p, f :: encode(p, f).None? ==> enc(p, f).None?
  {
    (p: string, f: string) =>
      match LegacyImage(None, encode(p, f))
      case (_, None) => None
      case (_, Some(e)) => Some([e])
  }

  function EnrollLegacyHailoCorrected(people: seq<PersonDir>, encode: FaceEncoder): (r: Option<Store>)
    ensures r.Some? ==> Aligned(r.value)
    ensures r.None? <==> exists k :: 0 <= k < |people| && people[k].files.None?
  {
    Enroll(people, LegacyEncoder(encode))
  }

  /** With the reset, an image without a face adds nothing, so no embedding
      crosses from one image to another. */
  lemma CorrectedImageWithoutFace(p: string, f: string, encode: FaceEncoder)
    requires encode(p, f) == Some([])
    ensures !Usable(p, f, LegacyEncoder(encode))
  {
  }

  /** With the reset, each image's entry is its own last face. */
  lemma CorrectedUsesLastFace(p: string, f: string, encode: FaceEncoder)
    requires EndsWith(f, JpgSuffix)
    requires encode(p, f).Some? && |encode(p, f).value| > 0
    requires forall i :: 0 <= i < |encode(p, f).value| ==> encode(p, f).value[i].Some?
    requires |encode(p, f).value[|encode(p, f).value| - 1].value| > 0
    ensures Usable(p, f, LegacyEncoder(encode))
    ensures LegacyEncoder(encode)(p, f).value[0] == encode(p, f).value[|encode(p, f).value| - 1].value
  {
  }

  /** The corrected version enrolls the same example correctly. */
  lemma CorrectedDoesNotLeak(e: Embedding, encode: FaceEncoder)
    requires |e| > 0
    requires encode("alice", "a.jpg") == Some([Some(e)])
    requires encode("bob", "b.jpg") == Some([])
    ensures EnrollLegacyHailoCorrected([PersonDir("alice", Some(["a.jpg"])), PersonDir("bob", Some(["b.jpg"]))], encode)
         == Some(Store([e], ["alice"]))
  {
    EndsWithAppend("a", JpgSuffix);
    EndsWithAppend("b", JpgSuffix);
    assert "a" + JpgSuffix == "a.jpg";
    assert "b" + JpgSuffix == "b.jpg";
    var people := [PersonDir("alice", Some(["a.jpg"])), PersonDir("bob", Some(["b.jpg"]))];
    var enc := LegacyEncoder(encode);
    assert people[1..] == [PersonDir("bob", Some(["b.jpg"]))];
    assert people[1..][1..] == [];
    assert ["a.jpg"][1..] == [];
    assert ["b.jpg"][1..] == [];
    assert FaceLoop(Some(e), []) == (Some(e), false);
    assert [Some(e)][1..] == [];
    assert FaceLoop(None, [Some(e)]) == (Some(e), false);
    assert LegacyImage(None, Some([Some(e)])) == (Some(e), Some(e));
    assert LegacyImage(None, Some([])) == (None, None);
    assert enc("alice", "a.jpg") == Some([e]);
    assert enc("bob", "b.jpg").None?;
    assert EnrollPerson("alice", ["a.jpg"], enc) == Store([e], ["alice"]);
    assert EnrollPerson("bob", ["b.jpg"], enc) == Store([], []);
  }
}

=== FILE: handler.dfy ===
/** The recognition handlers: the per-tick call that bootstraps the store,
    runs a recognition pass and strips the sentinel, and the tick that feeds
    its result to the presence update.  The newer handler uses the bounded
    pipeline; the older widget handler and the mirror's own loop use the
    unbounded one, and in those loops an exception that escapes a pass ends
    the worker thread.
 */
module Handler {
  import opened Wrappers
  import opened Json
  import opened Matcher
  import opened Store
  import opened Pipeline
  import opened Enrollment
  import opened Presence

  /** `[x for x in names if x != 'unknown']`. */
  function DropUnknown(names: seq<string>): (r: seq<string>)
    ensures IsSubsequence(r, names)
    ensures forall x :: x in r <==> x in names && x != Unknown
    ensures forall x :: x != Unknown ==> multiset(r)[x] == multiset(names)[x]
    decreases |names|
  {
    if |names| == 0 then []
    else
      var rest := DropUnknown(names[1..]);
      assert names == [names[0]] + names[1..];
      if names[0] != Unknown then [names[0]] + rest else rest
  }

  /** What the handler makes of a recognition pass: a failed pass is `None`,
      the sentinel is removed, and a list left empty is reported as `None`
      too, never as an empty list. */
  function PostFilter(processed: Option<seq<string>>): (r: Option<seq<string>>)
    ensures processed.None? ==> r.None?
    ensures r.Some? ==> |r.value| > 0 && Unknown !in r.value
    ensures r.Some? ==> r.value == DropUnknown(processed.value)
    ensures processed.Some? && r.None? ==> forall x :: x in processed.value ==> x == Unknown
  {
    match processed
    case None => None
    case Some(names) =>
      var kept := DropUnknown(names);
      if |kept| == 0 then None else Some(kept)
  }

  /** A list without the sentinel passes the filter unchanged, so filtering
      twice is filtering once. */
  lemma {:induction false} DropUnknownKeepsClean(names: seq<string>)
    requires Unknown !in names
    ensures DropUnknown(names) == names
    decreases |names|
  {
    if |names| > 0 {
      assert names[0] in names;
      DropUnknownKeepsClean(names[1..]);
      assert names == [names[0]] + names[1..];
    }
  }

  lemma PostFilterIdempotent(processed: Option<seq<string>>)
    ensures PostFilter(PostFilter(processed)) == PostFilter(processed)
  {
    if PostFilter(processed).Some? {
      DropUnknownKeepsClean(PostFilter(processed).value);
    }
  }

  /** The bootstrap check before a pass: when the store file is missing,
      enrollment runs first and its store is written.  The result is the
      store file the pass then reads. */
  function BootstrapStoreFile(storeFile: Option<Json>, enrolled: Option<Store>): (r: Option<Json>)
    ensures storeFile.Some? ==> r == storeFile
    ensures storeFile.None? && enrolled.Some? ==> r.Some? && Load(r.value) == enrolled
    ensures storeFile.None? && enrolled.None? ==> r.None?
  {
    if storeFile.Some? then storeFile
    else match enrolled
      case None => None
      case Some(s) =>
        LoadSave(s);
        Some(Save(s))
  }

  function LoadFile(file: Option<Json>): Option<Store> {
    match file
    case None => None
    case Some(j) => Load(j)
  }

  /** How a pass of a worker loop ends: an exception escaped it and ended
      the worker thread, or it returned its result. */
  datatype PassOutcome = Crashed | Passed(names: Option<seq<string>>)

  /** `_run_recognition` of the newer handler.  `listing` is the reference
      image directory, `None` when it is missing.  The bootstrap lists that
      directory outside any `try`, so a missing one ends the worker thread;
      a person directory that cannot be listed is caught inside enrollment,
      no store is written, and only the pass fails. */
  function RunRecognition(storeFile: Option<Json>, listing: Option<seq<PersonDir>>,
                          detectFile: (string, string) -> Option<Detections>,
                          frame: Option<Image>, detect: Image -> Option<Detections>,
                          recog: Image -> Option<Embedding>): (r: PassOutcome)
    ensures r.Crashed? <==> storeFile.None? && listing.None?
    ensures r.Passed? && r.names.Some? ==> |r.names.value| > 0 && Unknown !in r.names.value
    ensures storeFile.Some? ==>
      r == Passed(PostFilter(ProcessNewImage(Load(storeFile.value), frame, detect, recog)))
    ensures storeFile.None? && listing.Some? ==>
      r == Passed(PostFilter(ProcessNewImage(EnrollHailo(listing.value, detectFile, recog), frame, detect, recog)))
  {
    if storeFile.None? && listing.None? then Crashed
    else
      var enrolled := if storeFile.None? then EnrollHailo(listing.value, detectFile, recog) else None;
      var file := BootstrapStoreFile(storeFile, enrolled);
      Passed(PostFilter(ProcessNewImage(LoadFile(file), frame, detect, recog)))
  }

  /** `run_recognition` of the handler the mirror's own loop uses, with the
      older pass and the older enrollment.  Enrollment runs outside the
      `try`: a person directory it cannot list raises out of the pass. */
  function RunRecognitionLegacy(storeFile: Option<Json>, people: seq<PersonDir>, encode: FaceEncoder,
                                frame: Option<Image>, detect: Image -> Option<Detections>,
                                recog: Image -> Option<Embedding>): (r: PassOutcome)
    ensures r.Crashed? <==> storeFile.None? && exists k :: 0 <= k < |people| && people[k].files.None?
    ensures r.Passed? && r.names.Some? ==> |r.names.value| > 0 && Unknown !in r.names.value
    ensures storeFile.Some? ==>
      r == Passed(PostFilter(ProcessNewImageLegacy(Load(storeFile.value), frame, detect, recog)))
    ensures storeFile.None? && r.Passed? ==>
      r == Passed(PostFilter(ProcessNewImageLegacy(EnrollLegacyHailo(people, encode), frame, detect, recog)))
  {
    var enrolled := if storeFile.None? then EnrollLegacyHailo(people, encode) else None;
    if storeFile.None? && enrolled.None? then Crashed
    else
      var file := BootstrapStoreFile(storeFile, enrolled);
      Passed(PostFilter(ProcessNewImageLegacy(LoadFile(file), frame, detect, recog)))
  }

  /** The attributes an instance of the older recogniser class has: its
      class constants and the fields its constructor sets. */
  const RecognizerAttributes: set<string> :=
    {"file_dir", "JSON_PATH", "FACE_PIC_DIR", "picam2", "facial_detect_model", "facial_recog_model"}

  /** `_run_recognition` of the older widget handler, reading the store
      path through the attribute named `pathAttribute`.  Reading an
      attribute the recogniser lacks raises `AttributeError` before the
      `try`; otherwise the pass is that of the mirror's own handler. */
  function WidgetRecognition(pathAttribute: string, storeFile: Option<Json>, people: seq<PersonDir>,
                             encode: FaceEncoder, frame: Option<Image>, detect: Image -> Option<Detections>,
                             recog: Image -> Option<Embedding>): (r: PassOutcome)
    ensures pathAttribute !in RecognizerAttributes ==> r.Crashed?
    ensures pathAttribute in RecognizerAttributes ==>
      (r.Crashed? <==> storeFile.None? && exists k :: 0 <= k < |people| && people[k].files.None?)
    ensures pathAttribute in RecognizerAttributes && r.Passed? && r.names.Some? ==>
      |r.names.value| > 0 && Unknown !in r.names.value
  {
    if pathAttribute !in RecognizerAttributes then Crashed
    else RunRecognitionLegacy(storeFile, people, encode, frame, detect, recog)
  }

  /** The older widget handler as written: it asks for `_JSON_PATH`, a name
      the older recogniser does not define, so every pass raises, whatever
      the store, the listing and the camera hold. */
  function RunRecognitionWidget(storeFile: Option<Json>, people: seq<PersonDir>, encode: FaceEncoder,
                                frame: Option<Image>, detect: Image -> Option<Detections>,
                                recog: Image -> Option<Embedding>): (r: PassOutcome)
    ensures r.Crashed?
  {
    assert "_JSON_PATH" !in RecognizerAttributes by {
      assert forall a :: a in RecognizerAttributes ==> |a| != |"_JSON_PATH"|;
    }
    WidgetRecognition("_JSON_PATH", storeFile, people, encode, frame, detect, recog)
  }

  /** The older widget handler reading `JSON_PATH`, the name the recogniser
      defines: it then behaves as the mirror's own handler, and raises only
      when it has to enroll from a directory it cannot list. */
  function RunRecognitionWidgetCorrected(storeFile: Option<Json>, people: seq<PersonDir>, encode: FaceEncoder,
                                         frame: Option<Image>, detect: Image -> Option<Detections>,
                                         recog: Image -> Option<Embedding>): (r: PassOutcome)
    ensures r.Crashed? <==> storeFile.None? && exists k :: 0 <= k < |people| && people[k].files.None?
    ensures storeFile.Some? ==>
      r == Passed(PostFilter(ProcessNewImageLegacy(Load(storeFile.value), frame, detect, recog)))
  {
    assert "JSON_PATH" in RecognizerAttributes;
    WidgetRecognition("JSON_PATH", storeFile, people, encode, frame, detect, recog)
  }

  /** One iteration of the worker loop, given what the pass produced: the
      published presence list.  Values are immutable here, so publishing a
      copy is publishing the value. */
  function Tick(present: seq<string>, processed: Option<seq<string>>): (next: seq<string>)
    ensures Unknown !in next
    ensures processed.None? ==> next == []
    ensures |present| == 0 && PostFilter(processed).Some? ==> next == PostFilter(processed).value
    ensures |present| > 0 ==> IsSubsequence(next, present)
    ensures PostFilter(processed).None? ==> next == []
    ensures |present| > 0 && processed.Some? ==>
      forall x :: x in next <==> x in present && x in processed.value && x != Unknown
    ensures |present| > 0 && processed.Some? ==>
      forall x :: x in processed.value && x != Unknown ==> multiset(next)[x] == multiset(present)[x]
  {
    var detected := PostFilter(processed);
    var next := Reconcile(present, detected);
    assert detected.Some? && |present| > 0 ==> forall x :: x in next ==> x in present;
    assert processed.Some? && detected.Some? ==>
      forall x :: x in processed.value && x != Unknown ==> x in detected.value;
    next
  }

  /** The presence list after a run of ticks. */
  function Run(present: seq<string>, passes: seq<Option<seq<string>>>): seq<string>
    decreases |passes|
  {
    if |passes| == 0 then present else Run(Tick(present, passes[0]), passes[1..])
  }

  /** After the first tick the sentinel is never present, whatever the
      list started with, however many ticks run. */
  lemma {:induction false} RunNeverUnknown(present: seq<string>, passes: seq<Option<seq<string>>>)
    requires Unknown !in present || |passes| > 0
    ensures Unknown !in Run(present, passes)
    decreases |passes|
  {
    if |passes| > 0 {
      RunNeverUnknown(Tick(present, passes[0]), passes[1..]);
    }
  }

  /** The presence list of a worker loop after a run of passes.  Nothing
      in the loops catches an exception, so a crashed pass ends the thread
      and the published list keeps its last value. */
  function RunPasses(present: seq<string>, outcomes: seq<PassOutcome>): seq<string>
    decreases |outcomes|
  {
    if |outcomes| == 0 then present
    else match outcomes[0]
      case Crashed => present
      case Passed(p) => RunPasses(Tick(present, p), outcomes[1..])
  }

  /** Passes after a crash change nothing: the list is frozen. */
  lemma {:induction false} CrashFreezes(present: seq<string>, outcomes: seq<PassOutcome>, more: seq<PassOutcome>)
    requires exists i :: 0 <= i < |outcomes| && outcomes[i].Crashed?
    ensures RunPasses(present, outcomes + more) == RunPasses(present, outcomes)
    decreases |outcomes|
  {
    assert (outcomes + more)[0] == outcomes[0];
    if outcomes[0].Passed? {
      var i :| 0 <= i < |outcomes| && outcomes[i].Crashed?;
      assert outcomes[1..][i - 1] == outcomes[i];
      assert (outcomes + more)[1..] == outcomes[1..] + more;
      CrashFreezes(Tick(present, outcomes[0].names), outcomes[1..], more);
    }
  }

  /** The results of passes none of which crashed. */
  function PassedNames(outcomes: seq<PassOutcome>): (ps: seq<Option<seq<string>>>)
    requires forall i :: 0 <= i < |outcomes| ==> outcomes[i].Passed?
    ensures |ps| == |outcomes| && forall i :: 0 <= i < |outcomes| ==> ps[i] == outcomes[i].names
  {
    seq(|outcomes|, i requires 0 <= i < |outcomes| && outcomes[i].Passed? => outcomes[i].names)
  }

  /** Without a crash the loop updates the list exactly as `Run` does over
      the passes' results. */
  lemma {:induction false} RunPassesWithoutCrash(present: seq<string>, outcomes: seq<PassOutcome>)
    requires forall i :: 0 <= i < |outcomes| ==> outcomes[i].Passed?
    ensures RunPasses(present, outcomes) == Run(present, PassedNames(outcomes))
    decreases |outcomes|
  {
    if |outcomes| > 0 {
      assert forall i :: 0 <= i < |outcomes| - 1 ==> outcomes[1..][i] == outcomes[i + 1];
      RunPassesWithoutCrash(Tick(present, outcomes[0].names), outcomes[1..]);
      assert PassedNames(outcomes)[1..] == PassedNames(outcomes[1..]);
    }
  }

  /** As written, the older widget never shows anyone: its first pass ends
      the worker thread and the list it publishes stays empty. */
  lemma WidgetNeverSeesAnyone(storeFile: Option<Json>, people: seq<PersonDir>, encode: FaceEncoder,
                              frame: Option<Image>, detect: Image -> Option<Detections>,
                              recog: Image -> Option<Embedding>, more: seq<PassOutcome>)
    ensures RunPasses([], [RunRecognitionWidget(storeFile, people, encode, frame, detect, recog)] + more) == []
  {
    assert [RunRecognitionWidget(storeFile, people, encode, frame, detect, recog)][0].Crashed?;
    CrashFreezes([], [RunRecognitionWidget(storeFile, people, encode, frame, detect, recog)], more);
  }

  /** Corrected, once a store file exists the older widget shows the faces
      its first pass recognises, and nobody when it recognised nobody. */
  lemma WidgetCorrectedSeesFaces(storeFile: Option<Json>, people: seq<PersonDir>, encode: FaceEncoder,
                                 frame: Option<Image>, detect: Image -> Option<Detections>,
                                 recog: Image -> Option<Embedding>)
    requires storeFile.Some?
    ensures var processed := PostFilter(ProcessNewImageLegacy(Load(storeFile.value), frame, detect, recog));
      RunPasses([], [RunRecognitionWidgetCorrected(storeFile, people, encode, frame, detect, recog)])
        == if processed.Some? then processed.value else []
  {
    var processed := ProcessNewImageLegacy(Load(storeFile.value), frame, detect, recog);
    assert RunRecognitionWidgetCorrected(storeFile, people, encode, frame, detect, recog) == Passed(PostFilter(processed));
    if PostFilter(processed).Some? {
      FirstPassAdopts(processed);
    } else {
      assert [Passed(PostFilter(processed))][1..] == [];
    }
  }

  /** From an empty list, one pass that returned a filtered result
      publishes that result. */
  lemma FirstPassAdopts(processed: Option<seq<string>>)
    requires PostFilter(processed).Some?
    ensures RunPasses([], [Passed(PostFilter(processed))]) == PostFilter(processed).value
  {
    assert [Passed(PostFilter(processed))][1..] == [];
    PostFilterIdempotent(processed);
  }

  /** Whoever is present after a run was present at its start, unless the
      list emptied out on the way. */
  lemma {:induction false} RunWithoutEmptying(present: seq<string>, passes: seq<Option<seq<string>>>)
    requires |present| > 0
    requires forall k :: 0 <= k <= |passes| ==> |Run(present, passes[..k])| > 0
    ensures IsSubsequence(Run(present, passes), present)
    decreases |passes|
  {
    if |passes| == 0 {
      SubsequenceRefl(present);
    } else {
      var last := |passes| - 1;
      var init := passes[..last];
      assert forall k :: 0 <= k <= last ==> init[..k] == passes[..k];
      RunWithoutEmptying(present, init);
      var before := Run(present, init);
      RunLast(present, passes);
      SubsequenceTrans(Run(present, passes), before, present);
    }
  }

  /** A run is the tick of its last pass on the run of the others. */
  lemma RunLast(present: seq<string>, passes: seq<Option<seq<string>>>)
    requires |passes| > 0
    ensures Run(present, passes) == Tick(Run(present, passes[..|passes| - 1]), passes[|passes| - 1])
  {
    RunSnoc(present, passes[..|passes| - 1], passes[|passes| - 1]);
    assert passes[..|passes| - 1] + [passes[|passes| - 1]] == passes;
  }

  lemma {:induction false} RunSnoc(present: seq<string>, passes: seq<Option<seq<string>>>, p: Option<seq<string>>)
    ensures Run(present, passes + [p]) == Tick(Run(present, passes), p)
    decreases |passes|
  {
    if |passes| == 0 {
      assert passes + [p] == [p];
      assert [p][1..] == [];
    } else {
      assert (passes + [p])[1..] == passes[1..] + [p];
      RunSnoc(Tick(present, passes[0]), passes[1..], p);
    }
  }

  lemma {:induction false} SubsequenceRefl(s: seq<string>)
    ensures IsSubsequence(s, s)
    decreases |s|
  {
    if |s| > 0 {
      SubsequenceRefl(s[1..]);
    }
  }

  lemma {:induction false} SubsequenceTrans(a: seq<string>, b: seq<string>, c: seq<string>)
    requires IsSubsequence(a, b) && IsSubsequence(b, c)
    ensures IsSubsequence(a, c)
    decreases |c|, |b|
  {
    if |a| > 0 {
      assert |b| > 0 && |c| > 0;
      if b[0] == c[0] && IsSubsequence(b[1..], c[1..]) {
        if a[0] == b[0] && IsSubsequence(a[1..], b[1..]) {
          SubsequenceTrans(a[1..], b[1..], c[1..]);
        } else {
          SubsequenceTrans(a, b[1..], c[1..]);
        }
      } else {
        SubsequenceTrans(a, b, c[1..]);
      }
    }
  }
}

=== FILE: json.dfy ===
/** The JSON values the program reads and writes with `json.load` and
    `json.dump`, and Python's truthiness of them. */
module Json {

  datatype Json =
    | JNull
    | JBool(b: bool)
    | JNum(n: real)
    | JStr(s: string)
    | JArr(items: seq<Json>)
    | JObj(fields: map<string, Json>)

  /** `if data:` in Python: empty containers, empty text, zero, `False` and
      `None` are false. */
  predicate Truthy(j: Json) {
    match j
    case JNull => false
    case JBool(b) => b
    case JNum(n) => n != 0.0
    case JStr(s) => |s| > 0
    case JArr(items) => |items| > 0
    case JObj(fields) => |fields| > 0
  }
}

=== FILE: legacy_weather.dfy ===
/** The older weather client: a cached "current conditions" file that is
    refreshed when the hour of the clock differs, as text, from the hour of
    the file's `last_updated` stamp.  The clock and the HTTP request are
    parameters; the cache file's relevant fields are a record.
 */
module LegacyWeather {
  import opened Wrappers
  import opened Strings
  import opened Weather

  /** The fields of the cached file the client reads.  `tempF` is the text
      `get_current_temp_f` makes of the file's temperature, and `icon` the
      condition's icon reference, which it returns alongside. */
  datatype CurrentWeather = CurrentWeather(lastUpdated: string, name: string, region: string, tempF: string, icon: string)

  /** `_get_current_weather_url`: the current-conditions endpoint and its
      query. */
  function CurrentWeatherRequest(apiKey: string): (r: (string, map<string, string>))
    ensures |r.0| >= |BaseUrl| && r.0[..|BaseUrl|] == BaseUrl && EndsWith(r.0, "current.json")
    ensures r.1.Keys == {"key", "q", "aqi"}
    ensures r.1["key"] == apiKey && r.1["q"] == City && r.1["aqi"] == "no"
  {
    EndsWithAppend(BaseUrl, "current.json");
    (BaseUrl + "current.json", map["key" := apiKey, "q" := City, "aqi" := "no"])
  }

  /** A text has a second piece when split on `c` exactly when it holds `c`. */
  lemma SplitHasSecondPiece(s: string, c: char)
    ensures |Split(s, c)| >= 2 <==> c in s
  {
    if c !in s {
      SplitNoSeparator(s, c);
    } else if |Split(s, c)| == 1 {
      SplitJoin(s, c);
    }
  }

  /** `last_update.split(' ')[1].split(':')[0]`: the hour of the stamp, or
      `None` for the `IndexError` raised when the stamp has no space. */
  function UpdateHour(lastUpdated: string): (r: Option<string>)
    ensures r.None? <==> ' ' !in lastUpdated
    ensures r.Some? ==> ' ' !in r.value && ':' !in r.value
  {
    SplitHasSecondPiece(lastUpdated, ' ');
    var parts := Split(lastUpdated, ' ');
    if |parts| < 2 then None
    else
      var hour := Split(parts[1], ':')[0];
      assert hour in Split(parts[1], ':');
      SubPieceNoSpace(parts[1], hour);
      Some(hour)
  }

  lemma SubPieceNoSpace(piece: string, hour: string)
    requires ' ' !in piece
    requires hour == Split(piece, ':')[0]
    ensures ' ' !in hour
  {
    SplitJoin(piece, ':');
    var parts := Split(piece, ':');
    if |parts| > 1 {
      assert piece == parts[0] + [':'] + Join(parts[1..], [':']);
      assert forall i :: 0 <= i < |hour| ==> hour[i] == piece[i];
    }
  }

  /** For a stamp written as "date hour:minute" the extracted hour is the
      hour text, whatever follows the colon. */
  lemma UpdateHourOfStamp(date: string, hour: string, rest: string)
    requires ' ' !in date && ' ' !in hour && ':' !in hour
    ensures UpdateHour(date + " " + hour + ":" + rest) == Some(hour)
  {
    var stamp := date + " " + hour + ":" + rest;
    assert stamp == date + [' '] + (hour + ":" + rest);
    SplitAfter(date, hour + ":" + rest, ' ');
    var piece := Split(hour + ":" + rest, ' ')[0];
    assert hour + ":" + rest == hour + (":" + rest);
    SplitHead(hour, ":" + rest, ' ');
    assert ":" + rest == [':'] + rest;
    SplitHead([':'], rest, ' ');
    assert Split(":" + rest, ' ')[0] == [':'] + Split(rest, ' ')[0];
    assert piece == hour + [':'] + Split(rest, ' ')[0];
    SplitAfter(hour, Split(rest, ' ')[0], ':');
  }

  /** The outcome of `check_for_update`: the error it raises (a failed
      request or a stamp without a space), or the cache afterwards and the
      number of requests made. */
  datatype CheckOutcome = Raised | Checked(cache: CurrentWeather, requests: nat)

  /** `check_for_update`: a missing cache is fetched before it is read; the
      cache is fetched again when the clock's two-digit hour differs, as
      text, from the stamp's hour.  `fetch` is what the request for a
      missing cache returns and `refetch` what the request for a stale one
      returns, `None` when the request or its decoding fails. */
  function CheckForUpdate(currentHour: string, cache: Option<CurrentWeather>,
                          fetch: Option<CurrentWeather>, refetch: Option<CurrentWeather>)
    : (r: CheckOutcome)
    ensures r.Checked? ==> r.requests <= 2
    ensures cache.None? && r.Checked? ==> r.requests >= 1 && fetch.Some?
    ensures cache.Some? && r.Checked? ==>
      UpdateHour(cache.value.lastUpdated).Some?
      && (r.requests == 1 <==> UpdateHour(cache.value.lastUpdated).value != currentHour)
    ensures var read := if cache.Some? then cache else fetch;
      r.Checked? ==>
        read.Some? && UpdateHour(read.value.lastUpdated).Some?
        && ((r.requests == (if cache.Some? then 0 else 1))
              <==> UpdateHour(read.value.lastUpdated).value == currentHour)
        && (UpdateHour(read.value.lastUpdated).value == currentHour ==> r.cache == read.value)
        && (UpdateHour(read.value.lastUpdated).value != currentHour ==> refetch == Some(r.cache))
    ensures r.Checked? && r.requests == 0 ==> cache == Some(r.cache)
    ensures var read := if cache.Some? then cache else fetch;
      r.Raised? <==>
        || read.None?
        || UpdateHour(read.value.lastUpdated).None?
        || (UpdateHour(read.value.lastUpdated).value != currentHour && refetch.None?)
  {
    var read := if cache.Some? then cache else fetch;
    var before := if cache.Some? then 0 else 1;
    match read
    case None => Raised
    case Some(c) =>
      match UpdateHour(c.lastUpdated)
      case None => Raised
      case Some(hour) =>
        if currentHour == hour then Checked(c, before)
        else match refetch
          case None => Raised
          case Some(again) => Checked(again, before + 1)
  }

  /** The hours are compared as text: a stamp hour written without a
      leading zero never equals the clock's two-digit hour, so the cache is
      refetched although the hour is the same. */
  lemma HourComparedAsText(c: CurrentWeather, response: CurrentWeather)
    requires c.lastUpdated == "2024-06-01 9:05"
    ensures CheckForUpdate("09", Some(c), None, Some(response)) == Checked(response, 1)
  {
    UpdateHourOfStamp("2024-06-01", "9", "05");
    assert "2024-06-01" + " " + "9" + ":" + "05" == "2024-06-01 9:05";
  }

  /** `get_location`: the location line of the cached record, formatted as
      the newer client formats it. */
  function Location(c: CurrentWeather): (s: string)
    ensures s == LocationString(c.name, c.region)
  {
    c.name + ", " + c.region
  }
}

=== FILE: matcher.dfy ===
/** The nearest-neighbour matcher: each face embedding is compared with every
    stored embedding and gets the name of the closest one when it is close
    enough, and the sentinel "unknown" otherwise.

    Distances are compared squared: for a non-negative distance `d`,
    `d < 6.0` exactly when `d * d < 36.0` (see `ThresholdBySquares`), so no
    square root is needed.
 */
module Matcher {
  import opened Wrappers

  /** A face embedding as produced by the recognition model. */
  type Embedding = seq<real>

  /** The largest Euclidean distance, exclusive, that still counts as a match. */
  const Threshold: real := 6.0

  /** The label given to a face that matches nobody. */
  const Unknown: string := "unknown"

  /** Sum of squared component differences: the square of the Euclidean
      distance between two embeddings of the same length. */
  function SqDist(a: Embedding, b: Embedding): (d: real)
    requires |a| == |b|
    ensures d >= 0.0
    decreases |a|
  {
    if |a| == 0 then 0.0
    else (a[0] - b[0]) * (a[0] - b[0]) + SqDist(a[1..], b[1..])
  }

  lemma {:induction false} SqDistSymmetric(a: Embedding, b: Embedding)
    requires |a| == |b|
    ensures SqDist(a, b) == SqDist(b, a)
    decreases |a|
  {
    if |a| > 0 {
      SqDistSymmetric(a[1..], b[1..]);
    }
  }

  /** An embedding is at distance zero from itself. */
  lemma {:induction false} SqDistSelf(a: Embedding)
    ensures SqDist(a, a) == 0.0
    decreases |a|
  {
    if |a| > 0 {
      SqDistSelf(a[1..]);
    }
  }

  /** Comparing squared distance with 36 decides the same as comparing the
      distance itself with 6. */
  lemma ThresholdBySquares(dist: real)
    requires dist >= 0.0
    ensures dist < Threshold <==> dist * dist < Threshold * Threshold
  {
    if dist < Threshold {
      assert dist * dist <= dist * Threshold < Threshold * Threshold;
    } else {
      assert dist * dist >= dist * Threshold >= Threshold * Threshold;
    }
  }

  /** Every stored embedding has the probe's length, so the element-wise
      difference is defined. */
  predicate SameLength(e: Embedding, known: seq<Embedding>) {
    forall k :: 0 <= k < |known| ==> |known[k]| == |e|
  }

  /** The distance list of the matcher, from each stored embedding to `e`,
      in store order. */
  function Distances(e: Embedding, known: seq<Embedding>): (ds: seq<real>)
    requires SameLength(e, known)
    ensures |ds| == |known|
    ensures forall k :: 0 <= k < |known| ==> ds[k] == SqDist(known[k], e)
    decreases |known|
  {
    if |known| == 0 then [] else [SqDist(known[0], e)] + Distances(e, known[1..])
  }

  /** `numpy.argmin`: the first index holding the minimum. */
  function ArgMin(ds: seq<real>): (i: nat)
    requires |ds| > 0
    ensures i < |ds|
    ensures forall j :: 0 <= j < |ds| ==> ds[i] <= ds[j]
    ensures forall j :: 0 <= j < i ==> ds[j] > ds[i]
    decreases |ds|
  {
    if |ds| == 1 then 0
    else
      var j := ArgMin(ds[..|ds| - 1]);
      if ds[|ds| - 1] < ds[j] then |ds| - 1 else j
  }

  /** The index of the stored embedding `e` matches, if any: the first
      nearest one, provided it lies strictly within the threshold. */
  function MatchIndex(e: Embedding, known: seq<Embedding>): (m: Option<nat>)
    requires |known| > 0 && SameLength(e, known)
    ensures m.Some? ==>
      && m.value < |known|
      && SqDist(known[m.value], e) < Threshold * Threshold
      && (forall k :: 0 <= k < |known| ==> SqDist(known[m.value], e) <= SqDist(known[k], e))
      && (forall k :: 0 <= k < m.value ==> SqDist(known[k], e) > SqDist(known[m.value], e))
    ensures m.None? <==> forall k :: 0 <= k < |known| ==> SqDist(known[k], e) >= Threshold * Threshold
  {
    var ds := Distances(e, known);
    var i := ArgMin(ds);
    if ds[i] < Threshold * Threshold then Some(i) else None
  }

  /** One label, as the loop body of the matcher produces it.  `None` stands
      for the exception the program raises: `argmin` of an empty distance
      list, embeddings of different lengths, or a name list shorter than the
      embedding list. */
  function Label(e: Embedding, known: seq<Embedding>, names: seq<string>): (r: Option<string>)
    ensures r.None? <==>
      || |known| == 0
      || !SameLength(e, known)
      || (MatchIndex(e, known).Some? && MatchIndex(e, known).value >= |names|)
    ensures r.Some? && r.value != Unknown ==> r.value in names
    ensures r.Some? && MatchIndex(e, known).None? ==> r.value == Unknown
    ensures |known| > 0 && SameLength(e, known) && MatchIndex(e, known).Some? && MatchIndex(e, known).value < |names| ==>
      r == Some(names[MatchIndex(e, known).value])
  {
    if |known| == 0 || !SameLength(e, known) then None
    else match MatchIndex(e, known)
      case None => Some(Unknown)
      case Some(i) => if i < |names| then Some(names[i]) else None
  }

  /** `_convert_faces_to_names`: one label per embedding, in input order, or
      `None` when any label raises. */
  function ConvertFacesToNames(encodings: seq<Embedding>, known: seq<Embedding>, names: seq<string>)
    : (r: Option<seq<string>>)
    ensures r.Some? ==> |r.value| == |encodings|
    ensures r.Some? ==> forall i :: 0 <= i < |encodings| ==> Label(encodings[i], known, names) == Some(r.value[i])
    ensures r.None? <==> exists i :: 0 <= i < |encodings| && Label(encodings[i], known, names).None?
  {
    AllSome(seq(|encodings|, i requires 0 <= i < |encodings| => Label(encodings[i], known, names)))
  }

  /** Every label of a successful call is a stored name or the sentinel. */
  lemma LabelsAreNamesOrUnknown(encodings: seq<Embedding>, known: seq<Embedding>, names: seq<string>)
    requires ConvertFacesToNames(encodings, known, names).Some?
    ensures forall x :: x in ConvertFacesToNames(encodings, known, names).value ==> x == Unknown || x in names
  {
    var r := ConvertFacesToNames(encodings, known, names).value;
    forall x | x in r
      ensures x == Unknown || x in names
    {
      var i :| 0 <= i < |r| && r[i] == x;
      assert Label(encodings[i], known, names) == Some(x);
    }
  }

  /** An empty store only raises when there is a face to label. */
  lemma EmptyStore(encodings: seq<Embedding>, names: seq<string>)
    ensures ConvertFacesToNames(encodings, [], names) == if |encodings| == 0 then Some([]) else None
  {
    if |encodings| > 0 {
      assert Label(encodings[0], [], names).None?;
    }
  }

  /** A face exactly at the threshold distance is not recognised. */
  lemma BoundaryIsUnknown(e: Embedding, k: Embedding, name: string)
    requires |k| == |e|
    requires SqDist(k, e) == Threshold * Threshold
    ensures Label(e, [k], [name]) == Some(Unknown)
  {
    assert MatchIndex(e, [k]).None?;
  }

  /** A face identical to a stored embedding whose name differs from the
      sentinel gets a real name, the first one stored with distance zero. */
  lemma {:induction false} ExactMatchRecognised(known: seq<Embedding>, names: seq<string>, i: nat)
    requires i < |known| && |known| <= |names|
    requires SameLength(known[i], known)
    ensures Label(known[i], known, names).Some?
    ensures Label(known[i], known, names) != Some(Unknown) || Unknown in names
  {
    var e := known[i];
    SqDistSelf(e);
    assert SqDist(known[i], e) == 0.0;
    assert MatchIndex(e, known).Some?;
  }
}

=== FILE: pipeline.dfy ===
/** One recognition pass over a camera frame: detect faces, crop each box
    out of the frame, embed each crop, and label each embedding with the
    matcher.  The camera, the detection model and the recognition model are
    parameters: the frame is given, and the two models are functions whose
    `None` stands for a timeout or a failure of the call.

    Two versions exist.  The newer one (`ProcessNewImage`) bounds each model
    call, skips a crop whose embedding did not arrive, and turns a failed
    detection into a failed pass.  The older one (`ProcessNewImageLegacy`)
    calls the models directly, so any failure fails the whole pass.
 */
module Pipeline {
  import opened Wrappers
  import opened Matcher
  import opened Store

  /** A frame or crop: rows of pixel values. */
  type Image = seq<seq<int>>

  /** A detection result: the source image and one bounding box per face,
      each box `(x1, y1, x2, y2)` in pixel coordinates. */
  datatype Detections = Detections(image: Image, boxes: seq<seq<real>>)

  /** Python's `int()` on a float: truncation toward zero. */
  function Trunc(x: real): (i: int)
    ensures x >= 0.0 ==> 0 <= i && i as real <= x < i as real + 1.0
    ensures x < 0.0 ==> i <= 0 && i as real - 1.0 < x <= i as real
  {
    if x >= 0.0 then x.Floor else -((-x).Floor)
  }

  /** A slice bound after Python's normalisation: negative bounds count from
      the end, and everything is clamped to `0..len`. */
  function SliceBound(b: int, len: nat): (r: nat)
    ensures r <= len
    ensures 0 <= b <= len ==> r == b
    ensures b < 0 && b + len >= 0 ==> r == b + len
    ensures b > len ==> r == len
    ensures b + len < 0 ==> r == 0
  {
    if b < 0 then (if b + len < 0 then 0 else b + len)
    else if b > len then len
    else b
  }

  /** Python's `s[lo:hi]` with step 1: a contiguous run of `s`, empty when
      the normalised bounds cross. */
  function PySlice<T>(s: seq<T>, lo: int, hi: int): (r: seq<T>)
    ensures |r| <= |s|
    ensures SliceBound(lo, |s|) < SliceBound(hi, |s|) ==>
      r == s[SliceBound(lo, |s|)..SliceBound(hi, |s|)]
    ensures SliceBound(hi, |s|) <= SliceBound(lo, |s|) ==> r == []
  {
    var a, b := SliceBound(lo, |s|), SliceBound(hi, |s|);
    if a < b then s[a..b] else []
  }

  /** The region `crop_face` cuts out: the box coordinates are truncated to
      integers and read as `(x1, y1, x2, y2)`; rows `y1:y2` are kept and,
      within each, columns `x1:x2`. */
  function CropRegion(img: Image, box: seq<real>): (r: Image)
    requires |box| == 4
    ensures |r| == |PySlice(img, Trunc(box[1]), Trunc(box[3]))|
    ensures forall i :: 0 <= i < |r| ==>
      r[i] == PySlice(PySlice(img, Trunc(box[1]), Trunc(box[3]))[i], Trunc(box[0]), Trunc(box[2]))
  {
    var x1, y1, x2, y2 := Trunc(box[0]), Trunc(box[1]), Trunc(box[2]), Trunc(box[3]);
    var rows := PySlice(img, y1, y2);
    seq(|rows|, i requires 0 <= i < |rows| => PySlice(rows[i], x1, x2))
  }

  /** For a box with whole, in-range coordinates the region is exactly the
      pixels with row in `y1..y2` and column in `x1..x2`. */
  lemma CropRegionInRange(img: Image, x1: nat, y1: nat, x2: nat, y2: nat)
    requires y1 < y2 <= |img|
    requires forall i :: y1 <= i < y2 ==> x1 < x2 <= |img[i]|
    ensures var r := CropRegion(img, [x1 as real, y1 as real, x2 as real, y2 as real]);
      && |r| == y2 - y1
      && forall i, j :: 0 <= i < y2 - y1 && 0 <= j < x2 - x1 ==> |r[i]| == x2 - x1 && r[i][j] == img[y1 + i][x1 + j]
  {
    var box := [x1 as real, y1 as real, x2 as real, y2 as real];
    assert Trunc(box[0]) == x1 && Trunc(box[1]) == y1 && Trunc(box[2]) == x2 && Trunc(box[3]) == y2;
  }

  predicate IsEmptyImage(img: Image) {
    |img| == 0 || |img[0]| == 0
  }

  /** `crop_face`: the region, or a failure when the box is not four numbers
      or the region has no pixel (the resize step rejects an empty image). */
  function Crop(img: Image, box: seq<real>): (r: Option<Image>)
    ensures r.None? <==> |box| != 4 || IsEmptyImage(CropRegion(img, box))
    ensures r.Some? ==> r.value == CropRegion(img, box)
  {
    if |box| != 4 then None
    else
      var region := CropRegion(img, box);
      if IsEmptyImage(region) then None else Some(region)
  }

  /** `_cropped_faces`: one crop per box, in detection order, or `None` when
      detection produced nothing to iterate or any crop fails. */
  function CroppedFaces(det: Option<Detections>): (r: Option<seq<Image>>)
    ensures r.Some? ==> det.Some? && |r.value| == |det.value.boxes|
    ensures r.Some? ==> forall i :: 0 <= i < |r.value| ==> Crop(det.value.image, det.value.boxes[i]) == Some(r.value[i])
    ensures det.Some? && r.None? ==> exists i :: 0 <= i < |det.value.boxes| && Crop(det.value.image, det.value.boxes[i]).None?
  {
    match det
    case None => None
    case Some(d) => CropAll(d.image, d.boxes)
  }

  function CropAll(img: Image, boxes: seq<seq<real>>): (r: Option<seq<Image>>)
    ensures r.Some? ==> |r.value| == |boxes|
    ensures r.Some? ==> forall i :: 0 <= i < |boxes| ==> Crop(img, boxes[i]) == Some(r.value[i])
    ensures r.None? ==> exists i :: 0 <= i < |boxes| && Crop(img, boxes[i]).None?
  {
    AllSome(seq(|boxes|, i requires 0 <= i < |boxes| => Crop(img, boxes[i])))
  }

  /** The loop of `_encode_faces`: the embeddings that arrived, in crop
      order, skipping crops whose bounded call returned nothing. */
  function EncodeAll(crops: seq<Image>, recog: Image -> Option<Embedding>): (r: seq<Embedding>)
    ensures |r| <= |crops|
    ensures forall e :: e in r ==> exists c :: c in crops && recog(c) == Some(e)
    ensures (forall c :: c in crops ==> recog(c).Some?) ==>
      |r| == |crops| && forall i :: 0 <= i < |crops| ==> r[i] == recog(crops[i]).value
    decreases |crops|
  {
    if |crops| == 0 then []
    else
      var rest := EncodeAll(crops[1..], recog);
      assert forall c :: c in crops[1..] ==> c in crops;
      match recog(crops[0])
      case Some(e) =>
        assert forall i :: 1 <= i < |crops| ==> crops[i] == crops[1..][i - 1];
        [e] + rest
      case None => rest
  }

  /** Skipping works crop by crop, so the output follows the crop order. */
  lemma {:induction false} EncodeAllAppend(a: seq<Image>, b: seq<Image>, recog: Image -> Option<Embedding>)
    ensures EncodeAll(a + b, recog) == EncodeAll(a, recog) + EncodeAll(b, recog)
    decreases |a|
  {
    if |a| == 0 {
      assert a + b == b;
    } else {
      assert (a + b)[0] == a[0];
      assert (a + b)[1..] == a[1..] + b;
      EncodeAllAppend(a[1..], b, recog);
    }
  }

  /** `e` is what the first crop whose bounded call returned produced: every
      earlier crop returned nothing. */
  ghost predicate FirstEmbedding(crops: seq<Image>, recog: Image -> Option<Embedding>, e: Embedding) {
    exists i :: 0 <= i < |crops| && recog(crops[i]) == Some(e) && forall j :: 0 <= j < i ==> recog(crops[j]).None?
  }

  /** The head of the embeddings is the first crop's that arrived, and there
      is none exactly when no call returned. */
  lemma {:induction false} EncodeAllFirst(crops: seq<Image>, recog: Image -> Option<Embedding>)
    ensures |EncodeAll(crops, recog)| == 0 <==> forall i :: 0 <= i < |crops| ==> recog(crops[i]).None?
    ensures |EncodeAll(crops, recog)| > 0 ==> FirstEmbedding(crops, recog, EncodeAll(crops, recog)[0])
    decreases |crops|
  {
    if |crops| > 0 {
      EncodeAllFirst(crops[1..], recog);
      assert forall i :: 1 <= i < |crops| ==> crops[i] == crops[1..][i - 1];
      if recog(crops[0]).None? {
        var rest := EncodeAll(crops[1..], recog);
        if |rest| > 0 {
          var i :| 0 <= i < |crops[1..]| && recog(crops[1..][i]) == Some(rest[0])
            && forall j :: 0 <= j < i ==> recog(crops[1..][j]).None?;
          assert recog(crops[i + 1]) == Some(rest[0]);
          assert forall j :: 0 <= j < i + 1 ==> recog(crops[j]).None?;
        }
      } else {
        assert recog(crops[0]) == Some(EncodeAll(crops, recog)[0]);
      }
    }
  }

  /** `_encode_faces`: `None` when there were no crops to iterate. */
  function EncodeFaces(crops: Option<seq<Image>>, recog: Image -> Option<Embedding>): (r: Option<seq<Embedding>>)
    ensures r.None? <==> crops.None?
    ensures r.Some? ==> |r.value| <= |crops.value|
  {
    match crops
    case None => None
    case Some(cs) => Some(EncodeAll(cs, recog))
  }

  /** `process_new_image_hailo` of the newer code: `None` stands for the
      exceptions of loading the store or capturing the frame and for the
      `None` returned by the failed steps.  A successful pass gives one label
      per embedded crop, in detection order, each a stored name or the
      sentinel. */
  function ProcessNewImage(store: Option<Store>, frame: Option<Image>,
                           detect: Image -> Option<Detections>,
                           recog: Image -> Option<Embedding>): (r: Option<seq<string>>)
    ensures r.Some? ==> store.Some? && frame.Some? && detect(frame.value).Some?
    ensures r.Some? ==> |r.value| <= |detect(frame.value).value.boxes|
    ensures r.Some? ==> forall x :: x in r.value ==> x == Unknown || x in store.value.names
    ensures store.Some? && frame.Some? && detect(frame.value).Some? && |detect(frame.value).value.boxes| == 0 ==>
      r == Some([])
    ensures r.Some? ==> CroppedFaces(detect(frame.value)).Some?
    ensures r.Some? ==>
      var encs := EncodeAll(CroppedFaces(detect(frame.value)).value, recog);
      |r.value| == |encs|
      && forall i :: 0 <= i < |encs| ==> Label(encs[i], store.value.encodings, store.value.names) == Some(r.value[i])
    ensures r.None? <==>
      || store.None? || frame.None? || CroppedFaces(detect(frame.value)).None?
      || exists i :: 0 <= i < |EncodeAll(CroppedFaces(detect(frame.value)).value, recog)|
           && Label(EncodeAll(CroppedFaces(detect(frame.value)).value, recog)[i],
                    store.value.encodings, store.value.names).None?
  {
    if store.None? || frame.None? then None
    else
      var crops := CroppedFaces(detect(frame.value));
      match EncodeFaces(crops, recog)
      case None => None
      case Some(encs) =>
        var r := ConvertFacesToNames(encs, store.value.encodings, store.value.names);
        if r.Some? then LabelsAreNamesOrUnknown(encs, store.value.encodings, store.value.names); r
        else r
  }

  /** The unbounded embedding call on each crop, in crop order. */
  function EmbedEach(crops: seq<Image>, recog: Image -> Option<Embedding>): (xs: seq<Option<Embedding>>)
    ensures |xs| == |crops| && forall i :: 0 <= i < |crops| ==> xs[i] == recog(crops[i])
  {
    seq(|crops|, i requires 0 <= i < |crops| => recog(crops[i]))
  }

  /** The labelling step of the older pass: every crop is embedded, and
      any failed embedding or label fails the whole step. */
  function LabelCrops(store: Store, crops: seq<Image>, recog: Image -> Option<Embedding>)
    : (r: Option<seq<string>>)
    ensures r.Some? ==> |r.value| == |crops|
    ensures r.Some? ==> forall x :: x in r.value ==> x == Unknown || x in store.names
    ensures r.Some? ==>
      (forall i :: 0 <= i < |crops| ==> recog(crops[i]).Some?)
      && forall i :: 0 <= i < |crops| ==>
           Label(recog(crops[i]).value, store.encodings, store.names) == Some(r.value[i])
    ensures r.None? <==>
      || (exists i :: 0 <= i < |crops| && recog(crops[i]).None?)
      || (exists i :: 0 <= i < |crops|
            && Label(recog(crops[i]).value, store.encodings, store.names).None?)
  {
    match AllSome(EmbedEach(crops, recog))
    case None => None
    case Some(encs) =>
      var r := ConvertFacesToNames(encs, store.encodings, store.names);
      if r.Some? then LabelsAreNamesOrUnknown(encs, store.encodings, store.names); r
      else r
  }

  /** `process_new_image_hailo` of the older code: no call is bounded or
      caught, a failed detection leaves the detection variable unbound, and
      any crop whose embedding fails fails the pass. */
  function ProcessNewImageLegacy(store: Option<Store>, frame: Option<Image>,
                                 detect: Image -> Option<Detections>,
                                 recog: Image -> Option<Embedding>): (r: Option<seq<string>>)
    ensures r.Some? ==> store.Some? && frame.Some? && detect(frame.value).Some?
    ensures r.Some? ==> |r.value| == |detect(frame.value).value.boxes|
    ensures r.Some? ==> forall x :: x in r.value ==> x == Unknown || x in store.value.names
    ensures r.Some? ==> CroppedFaces(detect(frame.value)).Some?
    ensures r.Some? ==>
      var crops := CroppedFaces(detect(frame.value)).value;
      (forall i :: 0 <= i < |crops| ==> recog(crops[i]).Some?)
      && forall i :: 0 <= i < |crops| ==>
           Label(recog(crops[i]).value, store.value.encodings, store.value.names) == Some(r.value[i])
    ensures r.None? <==>
      || store.None? || frame.None? || CroppedFaces(detect(frame.value)).None?
      || (exists i :: 0 <= i < |CroppedFaces(detect(frame.value)).value|
            && recog(CroppedFaces(detect(frame.value)).value[i]).None?)
      || (exists i :: 0 <= i < |CroppedFaces(detect(frame.value)).value|
            && Label(recog(CroppedFaces(detect(frame.value)).value[i]).value,
                     store.value.encodings, store.value.names).None?)
  {
    if store.None? || frame.None? then None
    else
      match CroppedFaces(detect(frame.value))
      case None => None
      case Some(crops) => LabelCrops(store.value, crops, recog)
  }

  /** When every crop is embedded the two versions agree; the newer one
      differs only by skipping crops the older one would fail on. */
  lemma VersionsAgreeWithoutFailedCrops(store: Option<Store>, frame: Option<Image>,
                                        detect: Image -> Option<Detections>,
                                        recog: Image -> Option<Embedding>)
    requires forall img :: recog(img).Some?
    ensures ProcessNewImage(store, frame, detect, recog) == ProcessNewImageLegacy(store, frame, detect, recog)
  {
    if store.Some? && frame.Some? && CroppedFaces(detect(frame.value)).Some? {
      var crops := CroppedFaces(detect(frame.value)).value;
      var xs := EmbedEach(crops, recog);
      assert forall i :: 0 <= i < |xs| ==> xs[i].Some?;
      assert EncodeAll(crops, recog) == AllSome(xs).value;
    }
  }

  /** A single crop whose embedding fails sinks the whole older pass. */
  lemma LegacyFailsOnOneBadCrop(store: Store, frame: Image, detect: Image -> Option<Detections>,
                                recog: Image -> Option<Embedding>, crops: seq<Image>, i: nat)
    requires CroppedFaces(detect(frame)) == Some(crops)
    requires i < |crops| && recog(crops[i]).None?
    ensures ProcessNewImageLegacy(Some(store), Some(frame), detect, recog).None?
  {
    assert EmbedEach(crops, recog)[i].None?;
    assert AllSome(EmbedEach(crops, recog)).None?;
  }
}

=== FILE: presence.dfy ===
/** The presence tracker: the ordered list of names currently considered in
    front of the camera, and the rule that updates it once per tick from the
    recognition result.  The same update is written three times in the
    program (the newer handler, the older widget handler and the mirror's own
    loop); it is modelled once here.
 */
module Presence {
  import opened Wrappers

  /** `a` can be obtained from `b` by deleting elements, order kept. */
  predicate IsSubsequence<T(==)>(a: seq<T>, b: seq<T>)
    decreases |b|
  {
    if |a| == 0 then true
    else if |b| == 0 then false
    else (a[0] == b[0] && IsSubsequence(a[1..], b[1..])) || IsSubsequence(a, b[1..])
  }

  lemma {:induction false} SubsequenceMembers<T>(a: seq<T>, b: seq<T>)
    requires IsSubsequence(a, b)
    ensures forall x :: x in a ==> x in b
    decreases |b|
  {
    if |a| > 0 {
      if a[0] == b[0] && IsSubsequence(a[1..], b[1..]) {
        SubsequenceMembers(a[1..], b[1..]);
        assert forall x :: x in a ==> x == a[0] || x in a[1..];
      } else {
        SubsequenceMembers(a, b[1..]);
      }
    }
  }

  /** Reference filter: the names of `present`, in order and with their
      repetitions, that occur in `detected`. */
  function Keep(present: seq<string>, detected: seq<string>): (r: seq<string>)
    ensures IsSubsequence(r, present)
    ensures forall x :: x in r <==> x in present && x in detected
    ensures forall x :: x in detected ==> multiset(r)[x] == multiset(present)[x]
    decreases |present|
  {
    if |present| == 0 then []
    else
      var rest := Keep(present[1..], detected);
      assert present == [present[0]] + present[1..];
      if present[0] in detected then [present[0]] + rest
      else rest
  }

  /** The names `present` would collect for removal: every occurrence of a
      name absent from `detected`, in order. */
  function Absent(present: seq<string>, detected: seq<string>): (r: seq<string>)
    ensures |r| <= |present|
    ensures forall x :: x in r <==> x in present && x !in detected
    decreases |present|
  {
    if |present| == 0 then []
    else
      var rest := Absent(present[1..], detected);
      assert present == [present[0]] + present[1..];
      if present[0] in detected then rest
      else [present[0]] + rest
  }

  /** The position of the first occurrence of `x`. */
  function FirstIndex(s: seq<string>, x: string): (k: nat)
    requires x in s
    ensures k < |s| && s[k] == x && x !in s[..k]
    decreases |s|
  {
    if s[0] == x then 0
    else
      assert x in s[1..] by { assert s == [s[0]] + s[1..]; }
      var k := FirstIndex(s[1..], x);
      assert s[..k + 1] == [s[0]] + s[1..][..k];
      k + 1
  }

  /** Python's `list.remove(x)`: the list without the first occurrence of
      `x`, or `None` for the `ValueError` raised when `x` is missing. */
  function ListRemove(s: seq<string>, x: string): (r: Option<seq<string>>)
    ensures r.None? <==> x !in s
    ensures r.Some? ==> |r.value| == |s| - 1
    ensures r.Some? ==> multiset(r.value) == multiset(s) - multiset{x}
    ensures r.Some? ==> exists k :: 0 <= k < |s| && s[k] == x && x !in s[..k] && r.value == s[..k] + s[k + 1..]
  {
    if x !in s then None
    else
      var k := FirstIndex(s, x);
      assert s == s[..k] + [x] + s[k + 1..];
      Some(s[..k] + s[k + 1..])
  }

  /** `remove` deletes the element at the first index of the name. */
  lemma ListRemoveAt(s: seq<string>, x: string)
    requires x in s
    ensures ListRemove(s, x) == Some(s[..FirstIndex(s, x)] + s[FirstIndex(s, x) + 1..])
  {
  }

  /** Past a head that differs, the first index is one more than in the tail. */
  lemma FirstIndexTail(s: seq<string>, x: string)
    requires |s| > 0 && s[0] != x && x in s[1..]
    ensures x in s && FirstIndex(s, x) == FirstIndex(s[1..], x) + 1
  {
    assert x in s by {
      var j :| 0 <= j < |s[1..]| && s[1..][j] == x;
      assert s[j + 1] == x;
    }
  }

  /** Removal past a head that differs keeps the head in front. */
  lemma ListRemoveTail(s: seq<string>, x: string)
    requires |s| > 0 && s[0] != x && x in s[1..]
    ensures ListRemove(s, x) == Some([s[0]] + ListRemove(s[1..], x).value)
  {
    FirstIndexTail(s, x);
    var k := FirstIndex(s[1..], x);
    ListRemoveAt(s, x);
    ListRemoveAt(s[1..], x);
    DeleteBehindHead(s, k);
  }

  /** Deleting position `k + 1` keeps the head in front of the tail with
      position `k` deleted. */
  lemma DeleteBehindHead(s: seq<string>, k: nat)
    requires k + 1 < |s|
    ensures s[..k + 1] + s[k + 2..] == [s[0]] + (s[1..][..k] + s[1..][k + 1..])
  {
    assert s[..k + 1] == [s[0]] + s[1..][..k];
    assert s[k + 2..] == s[1..][k + 1..];
  }

  /** `remove` looks at the head first, then at the tail. */
  lemma ListRemoveHead(s: seq<string>, x: string)
    requires |s| > 0
    ensures s[0] == x ==> ListRemove(s, x) == Some(s[1..])
    ensures s[0] != x && x !in s[1..] ==> ListRemove(s, x).None?
    ensures s[0] != x && x in s[1..] ==> ListRemove(s, x) == Some([s[0]] + ListRemove(s[1..], x).value)
  {
    if s[0] == x {
      ListRemoveAt(s, x);
      assert s[..0] + s[1..] == s[1..];
    } else if x in s[1..] {
      ListRemoveTail(s, x);
    } else {
      assert x !in s by {
        assert s == [s[0]] + s[1..];
      }
    }
  }

  /** Removing the first name of the removal list deletes exactly the first
      absent occurrence: what is kept does not change and the rest of the
      removal list is what remains absent. */
  lemma {:induction false} RemoveFirstAbsent(s: seq<string>, d: seq<string>)
    requires |Absent(s, d)| > 0
    ensures ListRemove(s, Absent(s, d)[0]).Some?
    ensures Keep(ListRemove(s, Absent(s, d)[0]).value, d) == Keep(s, d)
    ensures Absent(ListRemove(s, Absent(s, d)[0]).value, d) == Absent(s, d)[1..]
    decreases |s|
  {
    var x := Absent(s, d)[0];
    if s[0] == x {
      assert s[0] !in d;
      ListRemoveHead(s, x);
    } else {
      assert s[0] in d;
      RemoveFirstAbsent(s[1..], d);
      ListRemoveHead(s, x);
      var t := ListRemove(s[1..], x).value;
      assert ListRemove(s, x) == Some([s[0]] + t);
      assert ([s[0]] + t)[1..] == t;
    }
  }

  /** Once nothing absent is left, the list is its own filter. */
  lemma {:induction false} NothingAbsent(s: seq<string>, d: seq<string>)
    requires Absent(s, d) == []
    ensures Keep(s, d) == s
    decreases |s|
  {
    if |s| > 0 {
      NothingAbsent(s[1..], d);
      assert s == [s[0]] + s[1..];
    }
  }

  /** The non-empty branch of the update, written as the program writes it:
      first collect every name of `present` that is missing from `detected`,
      then call `list.remove` once per collected name.  It removes every
      occurrence of an absent name and nothing else, and `remove` never
      raises. */
  method RemoveAbsent(present: seq<string>, detected: seq<string>) returns (r: seq<string>)
    ensures r == Keep(present, detected)
  {
    var toRemove: seq<string> := [];
    var i := 0;
    while i < |present|
      invariant 0 <= i <= |present|
      invariant toRemove == Absent(present[..i], detected)
    {
      assert present[..i + 1] == present[..i] + [present[i]];
      AbsentAppend(present[..i], present[i], detected);
      if present[i] !in detected {
        toRemove := toRemove + [present[i]];
      }
      i := i + 1;
    }
    assert present[..i] == present;
    r := present;
    var j := 0;
    while j < |toRemove|
      invariant 0 <= j <= |toRemove|
      invariant Keep(r, detected) == Keep(present, detected)
      invariant Absent(r, detected) == toRemove[j..]
    {
      assert Absent(r, detected)[0] == toRemove[j];
      RemoveFirstAbsent(r, detected);
      var removed := ListRemove(r, toRemove[j]);
      assert toRemove[j..][1..] == toRemove[j + 1..];
      r := removed.value;
      j := j + 1;
    }
    NothingAbsent(r, detected);
  }

  lemma {:induction false} AbsentAppend(s: seq<string>, x: string, d: seq<string>)
    ensures Absent(s + [x], d) == Absent(s, d) + (if x in d then [] else [x])
    decreases |s|
  {
    if |s| == 0 {
      assert s + [x] == [x];
      assert [x][1..] == [];
    } else {
      assert (s + [x])[1..] == s[1..] + [x];
      AbsentAppend(s[1..], x, d);
    }
  }

  /** One reconciliation step of the presence list.  A failed or empty
      recognition (`None`) clears it; an empty list adopts the detection as
      it is; otherwise names absent from the detection are dropped and no
      name is ever added. */
  function Reconcile(present: seq<string>, detected: Option<seq<string>>): (r: seq<string>)
    ensures detected.None? ==> r == []
    ensures detected.Some? && |present| == 0 ==> r == detected.value
    ensures detected.Some? && |present| > 0 ==>
      && IsSubsequence(r, present)
      && (forall x :: x in r <==> x in present && x in detected.value)
      && (forall x :: x in detected.value ==> multiset(r)[x] == multiset(present)[x])
  {
    match detected
    case None => []
    case Some(d) => if |present| == 0 then d else Keep(present, d)
  }

  /** The program's `_process_named_faces` / `_process_face_names`: the same
      update with the removal loop executed as written. */
  method ProcessNamedFaces(present: seq<string>, detected: Option<seq<string>>) returns (r: seq<string>)
    ensures r == Reconcile(present, detected)
  {
    if detected.None? {
      r := [];
    } else if |present| == 0 {
      r := detected.value;
    } else {
      r := RemoveAbsent(present, detected.value);
    }
  }

  /** Whatever the recognition produced, every name that survives an update
      was detected in this tick. */
  lemma ReconcileOnlyDetected(present: seq<string>, d: seq<string>)
    ensures forall x :: x in Reconcile(present, Some(d)) ==> x in d
    ensures Reconcile(present, Some([])) == []
  {
    KeepNothing(present);
  }

  lemma {:induction false} KeepNothing(s: seq<string>)
    ensures Keep(s, []) == []
    decreases |s|
  {
    if |s| > 0 {
      KeepNothing(s[1..]);
    }
  }

  /** While somebody is present, a newcomer is never added, however often
      they are detected. */
  lemma NoNewcomerWhilePresent(present: seq<string>, d: seq<string>, x: string)
    requires |present| > 0
    requires x !in present
    ensures x !in Reconcile(present, Some(d))
  {
  }

  /** The update never lengthens a non-empty list. */
  lemma {:induction false} ReconcileNeverGrows(present: seq<string>, detected: Option<seq<string>>)
    requires |present| > 0
    ensures |Reconcile(present, detected)| <= |present|
  {
    if detected.Some? {
      var r := Reconcile(present, detected);
      SubsequenceLength(r, present);
    }
  }

  lemma {:induction false} SubsequenceLength<T>(a: seq<T>, b: seq<T>)
    requires IsSubsequence(a, b)
    ensures |a| <= |b|
    decreases |b|
  {
    if |a| > 0 {
      if a[0] == b[0] && IsSubsequence(a[1..], b[1..]) {
        SubsequenceLength(a[1..], b[1..]);
      } else {
        SubsequenceLength(a, b[1..]);
      }
    }
  }

  /** Reconciling twice with the same detection changes nothing the second
      time, as long as the first result is non-empty. */
  lemma {:induction false} ReconcileIdempotent(present: seq<string>, d: seq<string>)
    requires |Reconcile(present, Some(d))| > 0
    ensures Reconcile(Reconcile(present, Some(d)), Some(d)) == Reconcile(present, Some(d))
  {
    var r := Reconcile(present, Some(d));
    AllDetectedKept(r, d);
  }

  lemma {:induction false} AllDetectedKept(s: seq<string>, d: seq<string>)
    requires forall x :: x in s ==> x in d
    ensures Keep(s, d) == s
    decreases |s|
  {
    if |s| > 0 {
      assert s[0] in d;
      AllDetectedKept(s[1..], d);
      assert s == [s[0]] + s[1..];
    }
  }

  /** Concrete updates: a failed pass clears the list, an empty list adopts
      the detection, and a non-empty list only loses names. */
  lemma Examples()
    ensures Reconcile([], None) == []
    ensures Reconcile([], Some(["alice", "bob"])) == ["alice", "bob"]
    ensures Reconcile(["alice", "bob"], Some(["alice"])) == ["alice"]
    ensures Reconcile(["alice"], Some(["bob"])) == []
    ensures Reconcile(["alice", "bob", "alice"], Some(["bob"])) == ["bob"]
  {
    assert "bob" != "alice";
    assert Keep(["bob"], ["alice"]) == Keep(["bob"][1..], ["alice"]);
    assert Keep(["alice"], ["bob"]) == [];
    assert ["alice", "bob", "alice"][1..] == ["bob", "alice"];
    assert ["bob", "alice"][1..] == ["alice"];
  }
}

=== FILE: store.dfy ===
/** The known-face store: two index-aligned lists, embeddings and the names
    they belong to, saved as one JSON object and read back whole. */
module Store {
  import opened Wrappers
  import opened Json
  import opened Matcher

  datatype Store = Store(encodings: seq<Embedding>, names: seq<string>)

  /** The store's intended invariant: one name per embedding. */
  predicate Aligned(s: Store) {
    |s.encodings| == |s.names|
  }

  const EncodingsKey: string := "known_encodings"
  const NamesKey: string := "known_names"

  /** `list(encoding)`: an embedding as a JSON array of numbers. */
  function EncodeEmbedding(e: Embedding): (items: seq<Json>)
    ensures |items| == |e|
    ensures forall i :: 0 <= i < |e| ==> items[i] == JNum(e[i])
    decreases |e|
  {
    if |e| == 0 then [] else [JNum(e[0])] + EncodeEmbedding(e[1..])
  }

  function EncodeEmbeddings(es: seq<Embedding>): (items: seq<Json>)
    ensures |items| == |es|
    ensures forall i :: 0 <= i < |es| ==> items[i] == JArr(EncodeEmbedding(es[i]))
    decreases |es|
  {
    if |es| == 0 then [] else [JArr(EncodeEmbedding(es[0]))] + EncodeEmbeddings(es[1..])
  }

  function EncodeNames(ns: seq<string>): (items: seq<Json>)
    ensures |items| == |ns|
    ensures forall i :: 0 <= i < |ns| ==> items[i] == JStr(ns[i])
    decreases |ns|
  {
    if |ns| == 0 then [] else [JStr(ns[0])] + EncodeNames(ns[1..])
  }

  /** `convert_and_save_json`: the record written to the store file.  It has
      exactly the two keys, the embeddings converted one by one in order and
      the names as they are. */
  function Save(s: Store): (j: Json)
    ensures j.JObj? && j.fields.Keys == {EncodingsKey, NamesKey}
    ensures j.JObj? && j.fields[EncodingsKey].JArr? && |j.fields[EncodingsKey].items| == |s.encodings|
    ensures j.JObj? && j.fields[EncodingsKey].JArr? ==>
      forall i, k :: 0 <= i < |s.encodings| && 0 <= k < |s.encodings[i]| ==>
        j.fields[EncodingsKey].items[i].JArr? && |j.fields[EncodingsKey].items[i].items| == |s.encodings[i]|
        && j.fields[EncodingsKey].items[i].items[k] == JNum(s.encodings[i][k])
    ensures j.JObj? && j.fields[NamesKey].JArr? && |j.fields[NamesKey].items| == |s.names|
    ensures j.JObj? && j.fields[NamesKey].JArr? ==>
      forall i :: 0 <= i < |s.names| ==> j.fields[NamesKey].items[i] == JStr(s.names[i])
  {
    JObj(map[EncodingsKey := JArr(EncodeEmbeddings(s.encodings)), NamesKey := JArr(EncodeNames(s.names))])
  }

  /** `np.array(encoding)` for a list of numbers; anything else is refused. */
  function DecodeEmbedding(items: seq<Json>): (r: Option<Embedding>)
    ensures r.Some? ==> |r.value| == |items|
    ensures r.Some? ==> forall i :: 0 <= i < |items| ==> items[i] == JNum(r.value[i])
    ensures r.None? <==> exists i :: 0 <= i < |items| && !items[i].JNum?
    decreases |items|
  {
    if |items| == 0 then Some([])
    else match items[0]
      case JNum(n) =>
        (match DecodeEmbedding(items[1..])
         case Some(rest) => Some([n] + rest)
         case None => None)
      case _ => None
  }

  function DecodeEmbeddings(items: seq<Json>): (r: Option<seq<Embedding>>)
    ensures r.Some? ==> |r.value| == |items|
    ensures r.Some? ==> forall i :: 0 <= i < |items| ==>
      items[i].JArr? && DecodeEmbedding(items[i].items) == Some(r.value[i])
    ensures r.None? <==> exists i :: 0 <= i < |items| && (!items[i].JArr? || DecodeEmbedding(items[i].items).None?)
    decreases |items|
  {
    if |items| == 0 then Some([])
    else match items[0]
      case JArr(nums) =>
        (match (DecodeEmbedding(nums), DecodeEmbeddings(items[1..]))
         case (Some(e), Some(rest)) => Some([e] + rest)
         case _ => None)
      case _ => None
  }

  function DecodeNames(items: seq<Json>): (r: Option<seq<string>>)
    ensures r.Some? ==> |r.value| == |items|
    ensures r.Some? ==> forall i :: 0 <= i < |items| ==> items[i] == JStr(r.value[i])
    ensures r.None? <==> exists i :: 0 <= i < |items| && !items[i].JStr?
    decreases |items|
  {
    if |items| == 0 then Some([])
    else match items[0]
      case JStr(name) =>
        (match DecodeNames(items[1..])
         case Some(rest) => Some([name] + rest)
         case None => None)
      case _ => None
  }

  /** `get_json_file`: the two lists of the record, in file order, or `None`
      for a record the program cannot read (a missing key raises).  No check
      is made that the lists have the same length. */
  function Load(j: Json): (r: Option<Store>)
    ensures r.Some? ==> j.JObj? && EncodingsKey in j.fields && NamesKey in j.fields
    ensures r.Some? <==>
      && j.JObj? && EncodingsKey in j.fields && NamesKey in j.fields
      && j.fields[EncodingsKey].JArr? && j.fields[NamesKey].JArr?
      && DecodeEmbeddings(j.fields[EncodingsKey].items).Some?
      && DecodeNames(j.fields[NamesKey].items).Some?
    ensures r.Some? ==>
      && Some(r.value.encodings) == DecodeEmbeddings(j.fields[EncodingsKey].items)
      && Some(r.value.names) == DecodeNames(j.fields[NamesKey].items)
  {
    match j
    case JObj(fields) =>
      if EncodingsKey !in fields || NamesKey !in fields then None
      else
        (match (fields[EncodingsKey], fields[NamesKey])
         case (JArr(es), JArr(ns)) =>
           (match (DecodeEmbeddings(es), DecodeNames(ns))
            case (Some(encs), Some(names)) => Some(Store(encs, names))
            case _ => None)
         case _ => None)
    case _ => None
  }

  lemma {:induction false} DecodeEncodeEmbedding(e: Embedding)
    ensures DecodeEmbedding(EncodeEmbedding(e)) == Some(e)
    decreases |e|
  {
    if |e| > 0 {
      DecodeEncodeEmbedding(e[1..]);
      assert EncodeEmbedding(e)[1..] == EncodeEmbedding(e[1..]);
      assert e == [e[0]] + e[1..];
    }
  }

  lemma {:induction false} DecodeEncodeEmbeddings(es: seq<Embedding>)
    ensures DecodeEmbeddings(EncodeEmbeddings(es)) == Some(es)
    decreases |es|
  {
    if |es| > 0 {
      var items := EncodeEmbeddings(es);
      assert items == [JArr(EncodeEmbedding(es[0]))] + EncodeEmbeddings(es[1..]);
      assert items[0] == JArr(EncodeEmbedding(es[0]));
      assert items[1..] == EncodeEmbeddings(es[1..]);
      DecodeEncodeEmbedding(es[0]);
      DecodeEncodeEmbeddings(es[1..]);
      assert DecodeEmbeddings(items) == Some([es[0]] + es[1..]);
      assert es == [es[0]] + es[1..];
    }
  }

  lemma {:induction false} DecodeEncodeNames(ns: seq<string>)
    ensures DecodeNames(EncodeNames(ns)) == Some(ns)
    decreases |ns|
  {
    if |ns| > 0 {
      DecodeEncodeNames(ns[1..]);
      assert EncodeNames(ns)[1..] == EncodeNames(ns[1..]);
      assert ns == [ns[0]] + ns[1..];
    }
  }

  /** Loading what was saved gives back the same store, aligned or not. */
  lemma LoadSave(s: Store)
    ensures Load(Save(s)) == Some(s)
  {
    DecodeEncodeEmbeddings(s.encodings);
    DecodeEncodeNames(s.names);
  }

  /** Loading does not enforce the alignment invariant: a record with one
      name and no embedding is read back as it is. */
  lemma LoadAcceptsMisaligned()
    ensures exists j :: Load(j).Some? && !Aligned(Load(j).value)
  {
    var s := Store([], ["alice"]);
    LoadSave(s);
    assert Load(Save(s)).Some? && !Aligned(Load(Save(s)).value);
  }
}

=== FILE: strings.dfy ===
/** Text helpers used by the face-recognition and weather code: suffix tests,
    decimal rendering of integers (Python's `str(int)` / f-string), and
    `str.split` / `str.join` with a separator.
 */
module Strings {

  /** Python's `s.endswith(suffix)`. */
  predicate EndsWith(s: string, suffix: string) {
    |suffix| <= |s| && s[|s| - |suffix|..] == suffix
  }

  lemma EndsWithAppend(prefix: string, suffix: string)
    ensures EndsWith(prefix + suffix, suffix)
  {
    assert (prefix + suffix)[|prefix|..] == suffix;
  }

  function DigitChar(d: nat): (c: char)
    requires d < 10
    ensures '0' <= c <= '9'
  {
    ['0', '1', '2', '3', '4', '5', '6', '7', '8', '9'][d]
  }

  predicate IsDigits(s: string) {
    forall i :: 0 <= i < |s| ==> '0' <= s[i] <= '9'
  }

  /** Decimal rendering of a natural number, most significant digit first,
      without leading zeros. */
  function NatToString(n: nat): (s: string)
    ensures 1 <= |s|
    ensures IsDigits(s)
    ensures n < 10 <==> |s| == 1
    decreases n
  {
    if n < 10 then [DigitChar(n)]
    else NatToString(n / 10) + [DigitChar(n % 10)]
  }

  lemma DigitCharInjective(a: nat, b: nat)
    requires a < 10 && b < 10
    requires DigitChar(a) == DigitChar(b)
    ensures a == b
  {
  }

  /** Different numbers never render to the same text. */
  lemma {:induction false} NatToStringInjective(a: nat, b: nat)
    requires NatToString(a) == NatToString(b)
    ensures a == b
    decreases a
  {
    var s := NatToString(a);
    if a < 10 {
      assert b < 10;
      DigitCharInjective(a, b);
    } else {
      assert b >= 10;
      var pa, pb := NatToString(a / 10), NatToString(b / 10);
      assert s == pa + [DigitChar(a % 10)];
      assert s == pb + [DigitChar(b % 10)];
      assert |pa| == |pb|;
      assert pa == s[..|s| - 1] == pb;
      assert DigitChar(a % 10) == s[|s| - 1] == DigitChar(b % 10);
      DigitCharInjective(a % 10, b % 10);
      NatToStringInjective(a / 10, b / 10);
    }
  }

  /** Python's `str(i)` for an integer of either sign. */
  function IntToString(i: int): (s: string)
    ensures 1 <= |s|
    ensures i >= 0 <==> s[0] != '-'
  {
    if i >= 0 then NatToString(i) else "-" + NatToString(-i)
  }

  /** Python's `sep.join(parts)`: the parts in order with `sep` between
      neighbours and nowhere else. */
  function Join(parts: seq<string>, sep: string): (s: string)
    decreases |parts|
  {
    if |parts| == 0 then ""
    else if |parts| == 1 then parts[0]
    else parts[0] + sep + Join(parts[1..], sep)
  }

  /** Joining one more part adds one separator and that part at the end. */
  lemma {:induction false} JoinSnoc(parts: seq<string>, last: string, sep: string)
    requires |parts| >= 1
    ensures Join(parts + [last], sep) == Join(parts, sep) + sep + last
    decreases |parts|
  {
    if |parts| == 1 {
      assert parts + [last] == [parts[0], last];
      assert [parts[0], last][1..] == [last];
    } else {
      assert (parts + [last])[1..] == parts[1..] + [last];
      JoinSnoc(parts[1..], last, sep);
    }
  }

  /** The joined text holds every character of every part plus one separator
      per gap between neighbours. */
  lemma {:induction false} JoinLength(parts: seq<string>, sep: string)
    requires |parts| >= 1
    ensures |Join(parts, sep)| == TotalLength(parts) + (|parts| - 1) * |sep|
    decreases |parts|
  {
    if |parts| > 1 {
      JoinLength(parts[1..], sep);
    }
  }

  function TotalLength(parts: seq<string>): nat
    decreases |parts|
  {
    if |parts| == 0 then 0 else |parts[0]| + TotalLength(parts[1..])
  }

  /** Python's `s.split(c)` with an explicit one-character separator:
      consecutive separators give empty pieces and the result always has at
      least one piece. */
  function Split(s: string, c: char): (parts: seq<string>)
    ensures |parts| >= 1
    ensures forall i :: 0 <= i < |parts| ==> c !in parts[i]
    decreases |s|
  {
    if |s| == 0 then [""]
    else
      var rest := Split(s[1..], c);
      if s[0] == c then [""] + rest
      else [[s[0]] + rest[0]] + rest[1..]
  }

  /** Splitting loses nothing: joining the pieces back with the separator
      gives the original text. */
  lemma {:induction false} SplitJoin(s: string, c: char)
    ensures Join(Split(s, c), [c]) == s
    decreases |s|
  {
    if |s| > 0 {
      var rest := Split(s[1..], c);
      SplitJoin(s[1..], c);
      assert Join(rest, [c]) == s[1..];
      if s[0] == c {
        assert Split(s, c) == [""] + rest;
        assert ([""] + rest)[1..] == rest;
        assert s == [c] + s[1..];
      } else {
        var parts := Split(s, c);
        assert parts == [[s[0]] + rest[0]] + rest[1..];
        if |rest| == 1 {
          assert Join(rest, [c]) == rest[0];
          assert s == [s[0]] + s[1..];
        } else {
          assert parts[1..] == rest[1..];
          assert Join(rest, [c]) == rest[0] + [c] + Join(rest[1..], [c]);
          assert s == [s[0]] + s[1..];
        }
      }
    }
  }

  /** A text with no separator in it splits into itself alone. */
  lemma {:induction false} SplitNoSeparator(s: string, c: char)
    requires c !in s
    ensures Split(s, c) == [s]
    decreases |s|
  {
    if |s| > 0 {
      SplitNoSeparator(s[1..], c);
      assert [s[0]] + s[1..] == s;
    }
  }

  /** The first piece reaches up to the first separator: a separator-free
      prefix `a` is the start of it. */
  lemma {:induction false} SplitHead(a: string, b: string, c: char)
    requires c !in a
    ensures Split(a + b, c)[0] == a + Split(b, c)[0]
    decreases |a|
  {
    if |a| > 0 {
      assert (a + b)[1..] == a[1..] + b;
      SplitHead(a[1..], b, c);
      assert a == [a[0]] + a[1..];
    } else {
      assert a + b == b;
    }
  }

  /** A separator-free prefix followed by the separator is a piece of its own. */
  lemma {:induction false} SplitAfter(a: string, b: string, c: char)
    requires c !in a
    ensures Split(a + [c] + b, c) == [a] + Split(b, c)
    decreases |a|
  {
    if |a| > 0 {
      assert (a + [c] + b)[1..] == a[1..] + [c] + b;
      SplitAfter(a[1..], b, c);
      assert a == [a[0]] + a[1..];
    } else {
      assert a + [c] + b == [c] + b;
      assert ([c] + b)[1..] == b;
    }
  }
}

=== FILE: weather.dfy ===
/** The newer weather client: when to refresh the cached forecast, the flag
    that makes the next check reload it, and the small derivations the
    weather widgets draw (location text, icon paths, the forecast days).

    The clock, the HTTP request and file existence are parameters; file
    contents are JSON values.  Requests run on their own thread in the
    program; here a request's effect is a separate step.
 */
module Weather {
  import opened Wrappers
  import opened Strings
  import opened Json

  const BaseUrl: string := "http://api.weatherapi.com/v1/"
  const City: string := "Haverstraw"
  const Degree: char := '\U{B0}'

  /** `"{name}, {region}"`, shared by both clients. */
  function LocationString(name: string, region: string): (s: string)
    ensures |s| == |name| + 2 + |region|
    ensures s[..|name|] == name
    ensures s[|name|..|name| + 2] == ", "
    ensures s[|name| + 2..] == region
  {
    name + ", " + region
  }

  /** `_get_forecast_url`: the forecast endpoint and its query. */
  function ForecastRequest(apiKey: string): (r: (string, map<string, string>))
    ensures |r.0| >= |BaseUrl| && r.0[..|BaseUrl|] == BaseUrl && EndsWith(r.0, "forecast.json")
    ensures r.1.Keys == {"key", "q", "days", "aqi", "alerts"}
    ensures r.1["key"] == apiKey && r.1["q"] == City && r.1["days"] == "5"
  {
    EndsWithAppend(BaseUrl, "forecast.json");
    (BaseUrl + "forecast.json",
     map["key" := apiKey, "q" := City, "days" := "5", "aqi" := "no", "alerts" := "no"])
  }

  /** `_needs_weather_update`: a refresh is due on a minute that is 1 modulo
      16, unless one was already started in that minute. */
  predicate NeedsWeatherUpdate(minute: int, lastUpdateClock: Option<int>) {
    minute % 16 == 1 && lastUpdateClock != Some(minute)
  }

  /** Within an hour the refresh minutes are exactly 1, 17, 33 and 49. */
  lemma RefreshMinutes(minute: int)
    requires 0 <= minute < 60
    ensures minute % 16 == 1 <==> minute in {1, 17, 33, 49}
  {
    if minute < 16 {
      assert minute % 16 == minute;
    } else if minute < 32 {
      assert minute % 16 == minute - 16;
    } else if minute < 48 {
      assert minute % 16 == minute - 32;
    } else {
      assert minute % 16 == minute - 48;
    }
  }

  /** The client's mutable state: the forecast file on disk, the forecast in
      memory, the flag that says the in-memory copy is current, and the
      minute of the last refresh started (`None` before the first). */
  datatype ClientState = ClientState(file: Json, forecast: Json, isUpdated: bool, lastUpdateClock: Option<int>)

  /** The state right after construction: the file has been read (the
      constructor waits until it exists). */
  function Initial(file: Json): (st: ClientState)
    ensures st.isUpdated && st.forecast == st.file && st.lastUpdateClock.None?
    ensures st.file == file && st.forecast == file
  {
    ClientState(file, file, true, None)
  }

  /** The result of a check: the new state and whether a refresh request was
      started. */
  datatype CheckResult = CheckResult(state: ClientState, requested: bool)

  /** `_check_for_temp_update` at the given minute of the clock. */
  function CheckForTempUpdate(st: ClientState, minute: int): (r: CheckResult)
    ensures r.state.isUpdated
    ensures r.state.file == st.file
    ensures !st.isUpdated ==> r.state.forecast == st.file
    ensures st.isUpdated ==> r.state.forecast == st.forecast
    ensures r.requested <==> NeedsWeatherUpdate(minute, st.lastUpdateClock)
    ensures r.requested ==> r.state.lastUpdateClock == Some(minute)
    ensures !r.requested ==> r.state.lastUpdateClock == st.lastUpdateClock
  {
    var reloaded := if !st.isUpdated then st.(forecast := st.file, isUpdated := true) else st;
    if NeedsWeatherUpdate(minute, reloaded.lastUpdateClock) then
      CheckResult(reloaded.(lastUpdateClock := Some(minute)), true)
    else CheckResult(reloaded, false)
  }

  /** A second check in the same minute never requests again. */
  lemma NoSecondRequestInSameMinute(st: ClientState, minute: int)
    ensures !CheckForTempUpdate(CheckForTempUpdate(st, minute).state, minute).requested
  {
  }

  /** `_request_and_save_weather`: the response (`None` when the request
      failed) is written and the flag cleared only when it is truthy.  A
      failed write is caught and leaves the old file, but the flag is
      cleared all the same. */
  function RequestAndSave(st: ClientState, response: Option<Json>, writeOk: bool): (r: ClientState)
    ensures r.forecast == st.forecast && r.lastUpdateClock == st.lastUpdateClock
    ensures !r.isUpdated <==> !st.isUpdated || (response.Some? && Truthy(response.value))
    ensures r.file != st.file ==> response.Some? && Truthy(response.value) && writeOk && r.file == response.value
  {
    match response
    case Some(data) =>
      if Truthy(data) then st.(file := if writeOk then data else st.file, isUpdated := false)
      else st
    case None => st
  }

  /** A saved response reaches the in-memory forecast at the next check. */
  lemma FetchThenCheckReloads(st: ClientState, data: Json, minute: int)
    requires Truthy(data)
    ensures CheckForTempUpdate(RequestAndSave(st, Some(data), true), minute).state.forecast == data
  {
  }

  /** `_get_current_icon_path`: the day/night icon if there is a file for
      it, otherwise the plain icon for the condition code, otherwise the
      cloudy icon. */
  function CurrentIconPath(iconDir: string, isDay: int, code: int, fileExists: string -> bool): (p: string)
    ensures fileExists(p) || p == iconDir + "/1009.png"
    ensures fileExists(iconDir + "/" + IntToString(isDay) + "/" + IntToString(code) + ".png") ==>
      p == iconDir + "/" + IntToString(isDay) + "/" + IntToString(code) + ".png"
    ensures p == iconDir + "/" + IntToString(isDay) + "/" + IntToString(code) + ".png"
      || p == iconDir + "/" + IntToString(code) + ".png"
      || p == iconDir + "/1009.png"
    ensures (!fileExists(iconDir + "/" + IntToString(isDay) + "/" + IntToString(code) + ".png")
             && fileExists(iconDir + "/" + IntToString(code) + ".png"))
      ==> p == iconDir + "/" + IntToString(code) + ".png"
    ensures (!fileExists(iconDir + "/" + IntToString(isDay) + "/" + IntToString(code) + ".png")
             && !fileExists(iconDir + "/" + IntToString(code) + ".png"))
      ==> p == iconDir + "/1009.png"
  {
    var dayNight := iconDir + "/" + IntToString(isDay) + "/" + IntToString(code) + ".png";
    var plain := iconDir + "/" + IntToString(code) + ".png";
    if fileExists(dayNight) then dayNight
    else if fileExists(plain) then plain
    else iconDir + "/1009.png"
  }

  /** `_get_forcast_icon`: the icon for the condition code if there is a
      file for it, otherwise the cloudy icon. */
  function ForecastIconPath(iconDir: string, code: int, fileExists: string -> bool): (p: string)
    ensures fileExists(p) || p == iconDir + "/1009.png"
    ensures p == iconDir + "/" + IntToString(code) + ".png" || p == iconDir + "/1009.png"
    ensures fileExists(iconDir + "/" + IntToString(code) + ".png") ==> p == iconDir + "/" + IntToString(code) + ".png"
    ensures !fileExists(iconDir + "/" + IntToString(code) + ".png") ==> p == iconDir + "/1009.png"
  {
    var plain := iconDir + "/" + IntToString(code) + ".png";
    if fileExists(plain) then plain else iconDir + "/1009.png"
  }

  /** Without a day/night variant, the current icon is the forecast icon. */
  lemma IconsAgreeWithoutDayNight(iconDir: string, isDay: int, code: int, fileExists: string -> bool)
    requires !fileExists(iconDir + "/" + IntToString(isDay) + "/" + IntToString(code) + ".png")
    ensures CurrentIconPath(iconDir, isDay, code, fileExists) == ForecastIconPath(iconDir, code, fileExists)
  {
  }

  /** `"{t}°F"`: how `_get_current_temp_f` and the forecast entries print a
      temperature that is already an integer. */
  function DegreesF(t: int): (s: string)
    ensures |s| == |IntToString(t)| + 2 && s[|s| - 2] == Degree && s[|s| - 1] == 'F'
    ensures s[..|IntToString(t)|] == IntToString(t)
  {
    IntToString(t) + [Degree, 'F']
  }

  /** One day of the forecast, with temperatures already integers. */
  datatype ForecastDay = ForecastDay(date: string, avgF: int, maxF: int, minF: int, code: int)

  /** One entry of the five-day widget. */
  datatype DayEntry = DayEntry(date: string, avg: string, high: string, low: string, iconPath: string)

  function DayEntryOf(d: ForecastDay, iconDir: string, fileExists: string -> bool): DayEntry {
    DayEntry(d.date, DegreesF(d.avgF), DegreesF(d.maxF), DegreesF(d.minF), ForecastIconPath(iconDir, d.code, fileExists))
  }

  /** `get_forecast_5day`: today is skipped and every later day gives one
      entry, in order. */
  function Forecast5Day(days: seq<ForecastDay>, iconDir: string, fileExists: string -> bool): (r: seq<DayEntry>)
    ensures |days| == 0 ==> r == []
    ensures |days| > 0 ==> |r| == |days| - 1
    ensures forall i :: 0 <= i < |r| ==> r[i] == DayEntryOf(days[i + 1], iconDir, fileExists)
  {
    var later := if |days| == 0 then [] else days[1..];
    seq(|later|, i requires 0 <= i < |later| => DayEntryOf(later[i], iconDir, fileExists))
  }

  /** The index of the last forecast day dated `today`, if any. */
  function LastDayIndex(days: seq<ForecastDay>, today: string): (r: Option<nat>)
    ensures r.None? <==> forall i :: 0 <= i < |days| ==> days[i].date != today
    ensures r.Some? ==> r.value < |days| && days[r.value].date == today
    ensures r.Some? ==> forall j :: r.value < j < |days| ==> days[j].date != today
    decreases |days|
  {
    if |days| == 0 then None
    else if days[|days| - 1].date == today then Some(|days| - 1)
    else
      var r := LastDayIndex(days[..|days| - 1], today);
      assert forall i :: 0 <= i < |days| - 1 ==> days[..|days| - 1][i] == days[i];
      r
  }

  /** `_get_daily_temp_f`: the high and low of the last forecast day dated
      today (the loop lets later matches overwrite earlier ones); `None`
      for the error raised when no day is dated today. */
  function DailyTemps(days: seq<ForecastDay>, today: string): (r: Option<(string, string)>)
    ensures r.None? <==> forall i :: 0 <= i < |days| ==> days[i].date != today
    ensures r.Some? ==>
      exists i :: 0 <= i < |days| && days[i].date == today
        && (forall j :: i < j < |days| ==> days[j].date != today)
        && r.value == ("High " + DegreesF(days[i].maxF), "Low " + DegreesF(days[i].minF))
  {
    match LastDayIndex(days, today)
    case None => None
    case Some(i) => Some(("High " + DegreesF(days[i].maxF), "Low " + DegreesF(days[i].minF)))
  }
}

=== FILE: widgets.dfy ===
/** The mirror's widgets, reduced to what they put on the draw list: the
    date and time, the names of the people in frame, and the weather.  A
    rendered text surface is modelled by its text, a loaded picture by the
    address it is fetched from; positions on screen are left out.
 */
module Widgets {
  import opened Wrappers
  import opened Strings
  import opened Weather
  import opened LegacyWeather

  datatype DrawItem = Text(text: string) | Picture(url: string)

  const NameSeparator := ", "

  /** `face_rec_name`: nothing is drawn for an empty frame; otherwise one
      text is appended naming everybody in frame, in order, separated by
      ", ", with no separator after the last name. */
  method FaceRecName(toDraw: seq<DrawItem>, inFrame: seq<string>) returns (drawn: seq<DrawItem>)
    ensures |inFrame| == 0 ==> drawn == toDraw
    ensures |inFrame| > 0 ==> drawn == toDraw + [Text(Join(inFrame, NameSeparator))]
  {
    if |inFrame| == 0 {
      return toDraw;
    }
    var nameText := "";
    if |inFrame| == 1 {
      nameText := nameText + inFrame[0];
      assert nameText == inFrame[0];
    } else {
      var n := |inFrame|;
      for x := 0 to n
        invariant x == 0 ==> nameText == ""
        invariant 0 < x < n ==> nameText == Join(inFrame[..x], NameSeparator) + NameSeparator
        invariant x == n ==> nameText == Join(inFrame, NameSeparator)
      {
        if x > 0 {
          JoinSnoc(inFrame[..x], inFrame[x], NameSeparator);
          assert inFrame[..x] + [inFrame[x]] == inFrame[..x + 1];
        }
        if x == n - 1 {
          nameText := nameText + inFrame[x];
          assert inFrame[..n] == inFrame;
        } else {
          nameText := nameText + inFrame[x] + NameSeparator;
        }
      }
    }
    drawn := toDraw + [Text(nameText)];
  }

  /** The names line starts with the first name and ends with the last
      one: there is no separator before the first or after the last. */
  lemma {:induction false} NamesLineEnds(inFrame: seq<string>)
    requires |inFrame| > 0
    ensures var line := Join(inFrame, NameSeparator);
      |line| >= |inFrame[0]| && line[..|inFrame[0]|] == inFrame[0]
      && EndsWith(line, inFrame[|inFrame| - 1])
  {
    if |inFrame| > 1 {
      var init := inFrame[..|inFrame| - 1];
      assert init + [inFrame[|inFrame| - 1]] == inFrame;
      JoinSnoc(init, inFrame[|inFrame| - 1], NameSeparator);
      EndsWithAppend(Join(init, NameSeparator) + NameSeparator, inFrame[|inFrame| - 1]);
      var line := Join(inFrame, NameSeparator);
      assert line == inFrame[0] + NameSeparator + Join(inFrame[1..], NameSeparator);
    } else {
      EndsWithAppend("", inFrame[0]);
      assert "" + inFrame[0] == inFrame[0];
    }
  }

  /** `date_and_time`: the date line, then the time line below it. */
  function DateAndTime(toDraw: seq<DrawItem>, dateText: string, timeText: string): (drawn: seq<DrawItem>)
    ensures |drawn| == |toDraw| + 2 && drawn[..|toDraw|] == toDraw
    ensures drawn[|toDraw|] == Text(dateText) && drawn[|toDraw| + 1] == Text(timeText)
  {
    toDraw + [Text(dateText), Text(timeText)]
  }

  /** `import_image`: icon references in the weather data lack a scheme,
      so "https:" is put in front before fetching. */
  function ImportImageUrl(iconRef: string): (url: string)
    ensures |url| == |iconRef| + 6 && url[..6] == "https:" && url[6..] == iconRef
  {
    "https:" + iconRef
  }

  /** `weather_and_location`: the update check runs first and its error
      propagates; then the location, the fetched icon and the temperature
      followed by " F" are appended, in that order. */
  function WeatherAndLocation(toDraw: seq<DrawItem>, currentHour: string,
                              cache: Option<CurrentWeather>,
                              fetch: Option<CurrentWeather>, refetch: Option<CurrentWeather>)
    : (r: Option<(seq<DrawItem>, CurrentWeather)>)
    ensures r.None? <==> CheckForUpdate(currentHour, cache, fetch, refetch).Raised?
    ensures r.Some? ==>
      var c := CheckForUpdate(currentHour, cache, fetch, refetch).cache;
      r.value.1 == c
      && |r.value.0| == |toDraw| + 3 && r.value.0[..|toDraw|] == toDraw
      && r.value.0[|toDraw|] == Text(LocationString(c.name, c.region))
      && r.value.0[|toDraw| + 1] == Picture(ImportImageUrl(c.icon))
      && r.value.0[|toDraw| + 2] == Text(c.tempF + " F")
  {
    match CheckForUpdate(currentHour, cache, fetch, refetch)
    case Raised => None
    case Checked(c, _) =>
      Some((toDraw + [Text(Location(c)), Picture(ImportImageUrl(c.icon)), Text(c.tempF + " F")], c))
  }
}

=== FILE: wrappers.dfy ===
/** Failure-carrying values shared by every module of the model.

    The original program signals failure in two ways that its callers treat
    alike: by raising an exception, or by returning Python's `None`.  Both
    are represented here by `None`.
 */
module Wrappers {

  datatype Option<+T> = None | Some(value: T)

  /** A loop that appends one result per item and is aborted by the first
      failure: all the values, in order, or `None` when any item failed. */
  function AllSome<T>(xs: seq<Option<T>>): (r: Option<seq<T>>)
    ensures r.Some? ==> |r.value| == |xs|
    ensures r.Some? ==> forall i :: 0 <= i < |xs| ==> xs[i] == Some(r.value[i])
    ensures r.None? <==> exists i :: 0 <= i < |xs| && xs[i].None?
    decreases |xs|
  {
    if |xs| == 0 then Some([])
    else
      var rest := AllSome(xs[1..]);
      assert forall i :: 1 <= i < |xs| ==> xs[1..][i - 1] == xs[i];
      match (xs[0], rest)
      case (Some(x), Some(tail)) => Some([x] + tail)
      case _ => None
  }
}
